=== FILE: README.md ===
# A verified model of the YouTube-Backend controllers

The service is an Express/Mongoose backend for a video platform. Its controllers answer HTTP
requests by reading and writing one MongoDB collection each for users, videos, likes,
subscriptions, playlists, comments and tweets. Every handler runs a fixed, ordered series of
checks. Each check has its own status code and message. When all checks pass, the handler
makes one small change to a collection and answers with a status code and a payload.

This project models those handlers in Dafny and proves what they do.

- The store is the class `Store.Db`. It holds one map per collection, from document id to
  document, plus `nextId`, the source of fresh ObjectIds. Its invariant `Valid` says three
  things. Every stored id is below `nextId`. Usernames and emails are unique (the unique
  indexes) and usernames are stored lowercased. No like and no subscription pair is stored
  twice, which the toggles keep because they create a pair only when none is stored.
- The natural order of a collection is increasing id, the order documents were inserted.
  `Tables` models `find`, `findOne` and `countDocuments` over that order (`Find`,
  `FindFirst`, `Count`).
- A request id is a `RawId`. It is either `ObjectId(id)` or `Malformed(text)`, which stands
  for anything `mongoose.isValidObjectId` rejects or Mongoose cannot cast.
- A request-body or query field is an `Option<string>`, absent when it is `undefined`.
  `Truthy` is JavaScript truthiness of such a field.
- Each controller file becomes one module of handler methods. Each handler returns an
  `Http.Response` (status, body, cookie effect). It declares the collections it may change in
  `modifies`, so every other collection is provably untouched.
- Collaborators the controllers call but do not define are parameters:
  - the Cloudinary uploader: `upload: string -> Option<Asset>`
  - password hashing
  - password comparison
  - token minting: `Mint`
  - the case-insensitive `$regex` text match
  - the sort key of a named field
- The getters that only compute (the dashboard) are functions that read the store.

Shared pieces:

- `Text`: `String.prototype.trim` over the ECMAScript white-space set, `toLowerCase`, and
  `parseInt` (leading white space, sign, `0x` prefix, longest digit prefix, NaN as `None`).
- `Paging`: the `page`/`limit` parsing and the `skip((page - 1) * limit).limit(limit)`
  window.
- `Ordering`: the optional one-field sort.
- `Toggles`: the find-then-delete-or-create step shared by the like and subscription toggles.
  On a collection without duplicate pairs, which `Valid` guarantees, the step flips one pair
  in the set of pairs.

## Model

| member | source | states |
|---|---|---|
| `Text.TrimStart` | src/controllers/user.controller.js:28 | the result is a suffix, the dropped prefix is all white space, and the result does not start with white space |
| `Text.TrimEnd` | src/controllers/user.controller.js:28 | the result is a prefix, the dropped suffix is all white space, and the result does not end with white space |
| `Text.Trim` | src/controllers/user.controller.js:28 | the result is a slice of the input between an all-white-space prefix and an all-white-space suffix, and it neither starts nor ends with white space |
| `Text.TrimEmptyIffAllSpace` | src/controllers/user.controller.js:28 | `s.trim() === ""` exactly when every character of `s` is white space |
| `UserController.BlankFieldMeaning` | src/controllers/user.controller.js:27-31 | a field is rejected as blank exactly when it is present and all white space; an absent field never is |
| `Text.ToLower` | src/controllers/user.controller.js:70 | same length, each character lowered, and no upper-case letter is left |
| `Text.ToLowerFixesIff` | src/controllers/user.controller.js:70 | lowercasing leaves a string unchanged exactly when it has no upper-case letter |
| `UserController.RegisterOutcome` | src/controllers/user.controller.js:23-77 | a blank field gives 400 before anything else; a conflict gives 409 before the avatar checks; no avatar file gives 400 "profile image required!"; a failed avatar upload gives 400; a form missing a required field gives 500; a 500 after the checks is the duplicate-key error and a stored account clashes; an accepted account has the lowercased username, the form's email and full name, the avatar's url, the cover's url or "", the hash of the password and no refresh token, and clashes with no stored account; every status is 400, 409 or 500 |
| `UserController.RegisterUser` | src/controllers/user.controller.js:23-87 | follows `RegisterOutcome`: every error stores nothing and leaves `nextId`; success stores the account under a fresh id, advances `nextId` by one and answers 201 with it, without password or refresh token; the store invariant is kept |
| `UserController.InsertUser` | src/controllers/user.controller.js:64-71 | `User.create` adds exactly the new account under a fresh id and keeps usernames and emails unique |
| `UserController.NewUserKeepsAccountsValid` | src/controllers/user.controller.js:64-71 | an account with a lowercase username and no clash keeps the unique and lowercase invariants |
| `UserController.MixedCaseNameNeverConflicts` | src/controllers/user.controller.js:34-37 | a username with an upper-case letter never conflicts by name with the lowercased stored names |
| `UserController.MixedCaseRegistrationCollides` | src/controllers/user.controller.js:34-70 | "Alice" passes the conflict check against a stored "alice", and the account then created collides with "alice" on the username |
| `UserController.GenerateTokens` | src/controllers/user.controller.js:7-20 | on success the stored refresh token becomes the minted one, whatever it was before, and nothing else changes; a missing user or failed mint is 500 and stores nothing |
| `UserController.LoginUser` | src/controllers/user.controller.js:90-132 | in order: no username 400, unknown username 404, wrong password 401, failed minting 500, all leaving the store unchanged; success stores the new refresh token and returns the same tokens in the body and the cookies |
| `UserController.LoginTwice` | src/controllers/user.controller.js:112-131 | for any two minted token pairs, after two logins the stored refresh token is the second one, so only one session's token is stored; the store invariant is kept |
| `UserController.NameAfterRegister` | src/controllers/user.controller.js:70-98 | after storing an account under `username.toLowerCase()`, looking up the username as sent finds that account exactly when it has no upper-case letter, and finds none otherwise |
| `UserController.AcceptedNameNonEmpty` | src/controllers/user.controller.js:27-31 | a form that passes the blank-field check with every field present has a non-empty username |
| `UserController.RegisterThenLogin` | src/controllers/user.controller.js:23-132 | registering (201) and then logging in with the same username and password answers 200 with the minted tokens in the body and cookies, and stores the new refresh token, when the username has no upper-case letter; a username with one, such as "Alice", gets "User not found" (404), because registration stores the name lowercased (line 70) but login looks it up as sent (line 98) |
| `UserController.LogoutUser` | src/controllers/user.controller.js:135-151 | always 200 with both cookies cleared; the store is not modified at all |
| `Text.DigitRun` | src/controllers/video.controller.js:11-12 | the longest prefix of digits in the radix |
| `Text.Decimal` | src/controllers/video.controller.js:9 | the numeral of a default is non-empty and all decimal digits |
| `Text.DecimalValue` | src/controllers/video.controller.js:9 | a numeral denotes the number it was written from |
| `Text.ParseIntDecimal` | src/controllers/video.controller.js:11-12 | `parseInt` reads a numeral back, ignoring whatever non-digit follows it |
| `Text.ParseIntOfDigits` | src/controllers/video.controller.js:11-12 | text starting with a decimal digit, and not with "0x", is read in radix 10 from its start |
| `Text.DigitRunOfPrefix` | src/controllers/video.controller.js:11-12 | a run of digits followed by a non-digit is read exactly to its end |
| `Text.ParseInt` | src/controllers/video.controller.js:11-12 | `parseInt` of text that is empty after leading white space is NaN; a negative result comes from text whose first non-space character is '-'; text whose first non-space character is a digit 1-9 gives a number that is not negative |
| `Text.ParseMagnitude` | src/controllers/video.controller.js:11-12 | an unsigned numeral is never negative; empty text is NaN; text starting with 1-9 is a number; after "0x" it is a number exactly when a hex digit follows |
| `Text.ReadDigits` | src/controllers/video.controller.js:11-12 | NaN exactly when the text is empty or does not start with a digit of the radix; otherwise not negative |
| `Text.ParseIntNegated` | src/controllers/video.controller.js:11-12 | a '-' before a numeral starting with a decimal digit negates its value, and NaN stays NaN |
| `Text.ParseIntWithoutDigits` | src/controllers/video.controller.js:11-12 | text starting with a character that is neither white space, a sign nor a digit is NaN |
| `Paging.ParsePaging` | src/controllers/video.controller.js:9-19 | with the defaults 1 and 10, the request is accepted exactly when `parseInt` gives a number of at least 1 for both, and then the page and size are those numbers; a page that is NaN or below 1 gives 400 "Invalid page number"; a valid page with a limit that is NaN or below 1 gives 400 "Invalid limit" |
| `Paging.DefaultPaging` | src/controllers/video.controller.js:9-12 | without `page` and `limit`, page 1 of 10 is asked for |
| `Paging.NumeralPaging` | src/controllers/comment.controller.js:15-23 | numerals are accepted exactly when both are at least 1, and "0" is rejected with the page checked first |
| `Paging.LenientPaging` | src/controllers/video.controller.js:9-19 | a page numeral followed by any trailing text is accepted with the default limit; a negated page numeral and a page starting with a non-numeric character are rejected as "Invalid page number" |
| `Paging.Page` | src/controllers/video.controller.js:44-47 | at most `limit` results, consecutive from offset `(page - 1) * limit`; empty past the end; exact length otherwise |
| `Paging.ItemOnItsPage` | src/controllers/comment.controller.js:25-27 | result `i` appears on page `i / limit + 1` at position `i % limit` |
| `Paging.FirstPagesArePrefix` | src/controllers/comment.controller.js:25-27 | pages 1 to k, read in turn, are the first `k * limit` results, none skipped or repeated |
| `Paging.PageOfIncreasing` | src/controllers/comment.controller.js:25-27 | a window of a result in natural order is in natural order |
| `Paging.PageOfSorted` | src/controllers/video.controller.js:39-47 | a window of a sorted result is sorted the same way |
| `Ordering.Sort` | src/controllers/video.controller.js:39-44 | the result is sorted on the key in the direction asked, and is a permutation of the input |
| `Ordering.OrderOf` | src/controllers/video.controller.js:39-42 | natural order exactly when `sortBy` is absent or empty; otherwise a sort on that field, ascending exactly when `sortType` is "asc" |
| `Ordering.Arrange` | src/controllers/video.controller.js:39-44 | without `sortBy` the order is left as it is; with it the result is sorted on that field, ascending only for "asc"; always the same documents |
| `Tables.Find` | src/controllers/tweet.controller.js:30 | lists exactly the matching documents, each once, in natural order |
| `Tables.SelectedEntries` | src/controllers/tweet.controller.js:30 | the documents named by the ids a query selects form such an exact listing |
| `Tables.ListsExactlyIsUnique` | src/controllers/tweet.controller.js:30 | there is only one such listing, so the answer of `find` is determined by the collection |
| `Tables.FindFirst` | src/controllers/like.controller.js:14-17 | `None` exactly when nothing matches; otherwise a matching document with no matching document before it |
| `Tables.SelectKeysAgree` | src/controllers/dashboard.controller.js:14 | a query's matching ids below a bound depend only on the documents below it |
| `Tables.Count` | src/controllers/video.controller.js:53 | the number of matching documents |
| `Tables.SelectKeysCount` | src/controllers/video.controller.js:53 | the ids a query selects below a bound are as many as the matching documents below it |
| `Tables.ReorderedEntries` | src/controllers/video.controller.js:44 | sorting a `find` result keeps only stored, matching documents in it |
| `Tables.ListingSize` | src/controllers/tweet.controller.js:30-36 | a `find` result has as many entries as there are matching documents |
| `Toggles.Toggled` | src/controllers/like.controller.js:19-26 | the pair set with the pair added when absent and removed when present, every other pair kept |
| `Toggles.ToggleStep` | src/controllers/like.controller.js:14-26 | the find-then-delete-or-create step: `nextId` is unchanged exactly when the pair was stored, a stored pair loses its document, and an absent pair gains one |
| `Toggles.ToggledTwice` | src/controllers/like.controller.js:19-26 | flipping a pair twice restores the pair set |
| `Toggles.DeleteEffect` | src/controllers/like.controller.js:25 | deleting the found record keeps every other record and, without duplicates, removes the pair |
| `Toggles.InsertEffect` | src/controllers/like.controller.js:20-23 | creating the record under a fresh id keeps every other record and adds the pair |
| `Toggles.ToggleKeepsDistinct` | src/controllers/like.controller.js:14-26 | a toggle keeps ids below the counter and the records duplicate-free, and flips the pair in the pair set |
| `Toggles.ToggleEffect` | src/controllers/like.controller.js:14-26 | records of other users and other targets keep their ids and contents; exactly one record is removed or added; without duplicate pairs the pair set is flipped and stays duplicate-free |
| `LikeController.ToggleLike` | src/controllers/like.controller.js:14-35 | deletes the first like of the pair or creates one, so the set of stored pairs is the old set with this pair toggled, then reports whether the pair is stored now |
| `LikeController.ToggleVideoLike` | src/controllers/like.controller.js:7-36 | an invalid id is 400 and changes nothing; otherwise the pair set has the (caller, video) pair toggled, answered 200 with `isliked` |
| `LikeController.ToggleCommentLike` | src/controllers/like.controller.js:38-67 | the same keyed on the comment |
| `LikeController.ToggleTweetLike` | src/controllers/like.controller.js:69-98 | the same keyed on the tweet, with the "Invalid commentId format" message |
| `LikeController.ToggleVideoLikeTwice` | src/controllers/like.controller.js:19-35 | from any valid store, the first answer is the negation of the prior state, the second its negation; other likes are untouched; the pair set is restored |
| `LikeController.GetLikedVideos` | src/controllers/like.controller.js:100-119 | 200 with only the first of the caller's video likes in natural order, its video populated when it still exists, or no entry when there is none |
| `SubscriptionController.ToggleSubscription` | src/controllers/subscription.controller.js:6-36 | an invalid channel id is 400 and changes nothing; otherwise the caller's subscription is deleted or created, so the pair set is the old one with (caller, channel) toggled, and `issubscribed` reports whether it is stored now |
| `SubscriptionController.TogglePair` | src/controllers/subscription.controller.js:15-32 | the find-then-delete-or-create step on the subscription pair, which toggles the pair in the pair set, then the re-read |
| `SubscriptionController.SubscribeThenUnsubscribe` | src/controllers/subscription.controller.js:20-36 | from any valid store without the pair, toggling twice answers true then false and restores the pair set |
| `SubscriptionController.GetUserChannelSubscribers` | src/controllers/subscription.controller.js:42-93 | 400 for an invalid id; the "No subscriber found" message exactly when no subscription to the channel has an existing subscriber; otherwise only the first such subscription, with a total of 1 |
| `SubscriptionController.GetSubscribedChannels` | src/controllers/subscription.controller.js:95-145 | the same with the roles of subscriber and channel swapped |
| `PlaylistController.RemoveAll` | src/controllers/playlist.controller.js:121-125 | the id is gone, and every other id keeps its number of occurrences |
| `PlaylistController.RemoveAllAppend` | src/controllers/playlist.controller.js:121-125 | removal distributes over concatenation, so the other entries keep their order |
| `PlaylistController.RemoveAllAbsent` | src/controllers/playlist.controller.js:121-135 | removing an id the list does not hold leaves the list as it was |
| `PlaylistController.RemoveAllIdempotent` | src/controllers/playlist.controller.js:121-125 | removing twice is removing once |
| `PlaylistController.AddThenRemove` | src/controllers/playlist.controller.js:96-97 | appending an id not in the list and then removing it gives back the list |
| `PlaylistController.AppendKeepsNoDuplicates` | src/controllers/playlist.controller.js:92-97 | appending an id not in the list keeps it duplicate-free and grows it by one, at the end |
| `PlaylistController.RemoveAllKeepsNoDuplicates` | src/controllers/playlist.controller.js:121-125 | removal keeps a duplicate-free list duplicate-free and shrinks it by one exactly when the id was there |
| `PlaylistController.CreatePlaylist` | src/controllers/playlist.controller.js:8-28 | no name is 400 and creates nothing; otherwise the playlist is stored under a fresh id with an empty list and the caller as owner, and the id counter advances by one |
| `PlaylistController.GetUserPlaylists` | src/controllers/playlist.controller.js:30-48 | 400 for an invalid id; 400 when the user owns no playlist; otherwise exactly the user's playlists in natural order |
| `PlaylistController.GetPlaylistById` | src/controllers/playlist.controller.js:50-68 | 400 for an invalid id or a missing playlist; otherwise that playlist |
| `PlaylistController.AddVideoToPlaylist` | src/controllers/playlist.controller.js:70-102 | in order: either id invalid, playlist missing, video missing, already listed (each 400, nothing changed); otherwise the id is appended, the list grows by one and stays duplicate-free |
| `PlaylistController.RemoveVideoFromPlaylist` | src/controllers/playlist.controller.js:104-136 | either id invalid or playlist missing is 400; otherwise every occurrence is pulled without checking the video, so an id not in the list leaves the playlist unchanged |
| `PlaylistController.AddThenRemoveVideo` | src/controllers/playlist.controller.js:70-136 | adding a video and then removing it restores the playlists collection |
| `PlaylistController.UpdatePlaylist` | src/controllers/playlist.controller.js:138-168 | in order: invalid id, no name, missing playlist (each 400, nothing changed); otherwise only the name and a sent description change |
| `PlaylistController.DeletePlaylist` | src/controllers/playlist.controller.js:170-186 | 400 for an invalid id or a missing playlist; otherwise only that playlist is removed |
| `VideoController.OwnerFilter` | src/controllers/video.controller.js:31-37 | an absent or empty `userId` sets no restriction; an ObjectId restricts to that owner; anything else is 400 |
| `VideoController.VideoFilter` | src/controllers/video.controller.js:21-37 | without a query or owner every video passes; with only an owner exactly that owner's videos pass; with only a query exactly the matching videos pass; with both exactly the owner's matching videos pass |
| `VideoController.VideoWindow` | src/controllers/video.controller.js:39-47 | every listed entry is a stored video that matches the filter; at most `limit` entries; increasing ids without `sortBy`, sorted on the field with it (its exact length and contents are stated by `WindowSize` and `WindowOfListing`) |
| `VideoController.WindowSize` | src/controllers/video.controller.js:39-47 | the window holds `min(limit, n - skip)` videos when the skip is below the number `n` of matching videos, and none otherwise |
| `VideoController.WindowOfListing` | src/controllers/video.controller.js:39-47 | for any exact listing of the matching videos, the window is the page `skip((page - 1) * limit).limit(limit)` of that listing left in id order, or of a rearrangement of it sorted on the requested field |
| `VideoController.GetAllVideos` | src/controllers/video.controller.js:8-62 | paging errors come first, then the `userId` error; 404 exactly when nothing matches; otherwise at most `limit` matching videos, the window of the requested order (natural, or sorted on the field), with the count of all matches |
| `VideoController.PublishAVideo` | src/controllers/video.controller.js:64-102 | in order: missing title or description 401, no video file 400, no thumbnail 400, failed upload 400, each storing nothing; otherwise a published video with no views, owned by the caller, is stored under a fresh id, and the id counter advances by one |
| `VideoController.GetVideoById` | src/controllers/video.controller.js:104-122 | 400 for an invalid id, 404 for a missing video, otherwise the video |
| `VideoController.UpdateVideo` | src/controllers/video.controller.js:124-168 | invalid id 400, missing title or description 400; no thumbnail sent, a failed upload or a missing video is 404 and changes nothing; otherwise only title, description and thumbnail change |
| `VideoController.DeleteVideo` | src/controllers/video.controller.js:170-181 | an id that cannot be cast is 400; any other id is 200 and afterwards no video has it, and no other video is touched |
| `VideoController.TogglePublishStatus` | src/controllers/video.controller.js:183-201 | an invalid id or a missing video is 400 and changes nothing; otherwise only `isPublished` is negated |
| `VideoController.TogglePublishTwice` | src/controllers/video.controller.js:186-190 | two toggles answer opposite states and restore the videos collection |
| `CommentController.GetVideoComments` | src/controllers/comment.controller.js:7-50 | the video id is checked before page and limit; 404 exactly when the video has no comments; otherwise at most `limit` of its comments, the natural-order window, empty past the end, with the total count |
| `CommentController.AddComment` | src/controllers/comment.controller.js:52-75 | invalid video id 400; content exactly "" 400; any other content, absent or blank included, is stored on that video for the caller under a fresh id, and the id counter advances by one |
| `CommentController.UpdateComment` | src/controllers/comment.controller.js:77-116 | in order: invalid id 400, content "" 400, missing comment 404, each changing nothing; otherwise only the content changes, when one is sent |
| `CommentController.DeleteComment` | src/controllers/comment.controller.js:118-132 | invalid id 400, missing comment 404; otherwise only that comment is removed |
| `TweetController.CreateTweet` | src/controllers/tweet.controller.js:7-21 | falsy content is 400 and creates nothing; otherwise a tweet owned by the caller is stored under a fresh id, and the id counter advances by one |
| `TweetController.GetUserTweets` | src/controllers/tweet.controller.js:23-41 | 400 for an invalid id; otherwise 200 with exactly the owner's tweets in natural order, also when there are none |
| `TweetController.UpdateTweet` | src/controllers/tweet.controller.js:43-66 | in order: invalid id 400, falsy content 400, missing tweet 404, each changing nothing; otherwise only the content changes |
| `TweetController.DeleteTweet` | src/controllers/tweet.controller.js:68-82 | invalid id 400, missing tweet 404; otherwise only that tweet is removed |
| `TweetController.CreateThenList` | src/controllers/tweet.controller.js:7-41 | a created tweet is in its owner's list afterwards, with its id and content, and the store stays valid |
| `DashboardController.SumViews` | src/controllers/dashboard.controller.js:12-23 | the `$sum` of views over the listed videos is 0 exactly when none of them has a view |
| `DashboardController.SumViewsBounds` | src/controllers/dashboard.controller.js:12-23 | the sum bounds each listed video's views |
| `DashboardController.SumViewsLast` | src/controllers/dashboard.controller.js:12-23 | the sum of a list is the sum without its last video plus that video's views |
| `DashboardController.SumViewsAgree` | src/controllers/dashboard.controller.js:12-23 | the sum reads only the listed videos: two collections that agree on them give the same sum |
| `DashboardController.TotalViews` | src/controllers/dashboard.controller.js:12-23 | absent exactly when the user owns no video; otherwise the sum of the views of the user's videos in natural order, which bounds each owned video's views and is 0 exactly when none has a view |
| `DashboardController.OwnedAfterNewVideo` | src/controllers/dashboard.controller.js:12-23 | storing a new video under the next id appends it to the owner's list when it is theirs, leaves the list alone otherwise, and adds its views to the sum exactly then |
| `DashboardController.TotalViewsAndCount` | src/controllers/dashboard.controller.js:12-25 | the view total is absent exactly when the video count is 0, and it is 0 exactly when the user has videos and none of them has a view |
| `DashboardController.TotalViewsOfNewVideo` | src/controllers/dashboard.controller.js:12-23 | a new video of the owner raises the total by its views (from absent to its views); another user's video leaves the total unchanged |
| `DashboardController.GetChannelStats` | src/controllers/dashboard.controller.js:9-39 | 500 for an id that is not an ObjectId; otherwise 200 with the number of subscriptions to the channel, the number of the user's videos, the number of likes on them, and `totalVideoViews` equal to `TotalViews` of the user: their views' sum, absent when there are no videos |
| `DashboardController.GetChannelVideos` | src/controllers/dashboard.controller.js:41-55 | 500 for an id that cannot be cast; 200 with a message exactly when the user has no video; otherwise exactly the user's videos in natural order |
| `Store.Db.NewId` | src/controllers/like.controller.js:20-23 | a created document gets an id no stored document has, and later ids are larger |

## Left out

- Route wiring, CORS, body parsing and cookie options are left out; they have no logic of
  their own. `registerUser` and `loginUser` are public routes
  (src/routes/user.routes.js:21-35) and take no caller. `logoutUser` and the comment,
  subscription, playlist and dashboard routes run behind `verifyJWT`
  (src/routes/user.routes.js:37, src/routes/comment.routes.js:11,
  src/routes/subscription.routes.js:10, src/routes/playlist.routes.js:14,
  src/routes/dashboard.routes.js:6), so their caller is a known user id. No routes file for
  likes, videos or tweets exists, and `src/app.js:24` mounts only the user routes; the model
  gives those handlers a caller id as the comment and subscription routes do.
- `verifyJWT` and `refreshAccessToken` are not part of this model. The routes import
  `refreshAccessToken`, but the user controller does not export it, so token rotation is not
  modelled.
- `user.model.js`, `video.model.js` and the other schemas are not part of this model. The
  model assumes the following:
  - the user fields are required, and `username` and `email` carry unique indexes;
  - a new video is published and has 0 views;
  - documents are created with exactly the fields the handlers pass.
- Password hashing, `isPasswordCorrect`, JWT signing and expiry are opaque parameters.
- The Cloudinary uploader is an opaque parameter that may fail. Uploads happen in the source
  even when the handler later fails; that side effect is not modelled.
- The `$regex` text search is the parameter `matches`. Sorting on a named field is the
  parameter `fieldKey`, and ties are broken by a stable insertion sort; MongoDB promises no
  tie order.
- `$lookup`/`$unwind`/`$project`, `populate` and `select` projections are only partly
  modelled. Answers carry the whole document, and the liked video is joined by id.
- Messages of 200 answers, the `ApiResponse` envelope, `createdAt` and `updatedAt` are not
  modelled.
- `asyncHandler` is not part of this model. An error the handlers throw without a status
  (a `TypeError`, a failed cast, a duplicate key) is taken to reach the client as 500, and
  its message is approximate.
- Store failures are not modelled: the store never fails. This covers the 500 "Server error"
  of `toggleSubscription` and the unreachable `!result` checks after `find` and `create`.
- Concurrency is not modelled. Handlers run one at a time, so the read-then-write toggles
  cannot race.
- `toLowerCase` is modelled on ASCII letters only.
- Numbers are unbounded integers. `parseInt` results beyond 2^53 and floating-point views
  are not modelled.
- Only string (or absent) body and query values are modelled. Arrays or objects sent as
  `page`, `limit`, `content` and so on are not.
- Mongoose query details are simplified:
  - a filter field whose value is `undefined` matches no document;
  - a `$set` of an `undefined` field leaves it unchanged;
  - object-shaped ids passed to `findByIdAndUpdate`/`findByIdAndDelete` are looked up by
    their `_id`.
- `UserController.RegisterUser`: the two 500 answers for an incomplete form, a missing
  username and a failed schema validation, share one approximate message.
- `UserController.LogoutUser`: the unexecuted `findByIdAndUpdate` is modelled as no store
  change at all. That is the behaviour under Mongoose's lazy queries.

=== FILE: comment_controller.dfy ===
/** Comments on videos: the paged listing and the add, update and delete handlers. */
module CommentController {
  import opened Records
  import opened Http
  import opened Tables
  import opened Paging
  import opened Store

  function OnVideo(video: Id): Comment -> bool
  {
    (c: Comment) => c.video == video
  }

  /** `getVideoComments`: the video id is checked before page and limit; the answer is the window
      `skip((page - 1) * limit).limit(limit)` of the video's comments in natural order, or 404
      only when the video has no comments at all (a page past the end is 200 with none). */
  method GetVideoComments(db: Db, videoId: RawId, page: Option<string>, limit: Option<string>)
    returns (resp: Response)
    requires db.Valid()
    ensures videoId.Malformed? ==> resp == Fail(400, "Invalid videoId format")
    ensures videoId.ObjectId? && ParsePaging(page, limit).Err? ==>
      resp == Fail(ParsePaging(page, limit).status, ParsePaging(page, limit).message)
    ensures videoId.ObjectId? && ParsePaging(page, limit).Ok? ==>
      var pg := ParsePaging(page, limit).value;
      var total := |KeysWhere(db.comments, OnVideo(videoId.id))|;
      && (total == 0 <==> resp == Fail(404, "No comments found"))
      && (total > 0 ==>
            && resp.status == 200 && resp.body.CommentPage? && resp.body.commentCount == total
            && |resp.body.comments| <= pg.size
            && (Skip(pg) >= total ==> resp.body.comments == [])
            && (forall i :: 0 <= i < |resp.body.comments| ==>
                  var (k, c) := resp.body.comments[i];
                  k in db.comments && db.comments[k] == c && c.video == videoId.id)
            && resp.body.comments == Page(Find(db.comments, db.nextId, OnVideo(videoId.id)), pg))
  {
    if videoId.Malformed? {
      return Fail(400, "Invalid videoId format");
    }
    var paging := ParsePaging(page, limit);
    if paging.Err? {
      return Fail(paging.status, paging.message);
    }
    var found := Find(db.comments, db.nextId, OnVideo(videoId.id));
    var comments := Page(found, paging.value);
    var count := Count(db.comments, db.nextId, OnVideo(videoId.id));
    if count == 0 {
      return Fail(404, "No comments found");
    }
    ListingSize(found, db.comments, OnVideo(videoId.id));
    resp := Reply(200, CommentPage(comments, count));
  }

  /** `addComment`: 400 for an invalid video id, 400 when the content is exactly ""; otherwise a
      comment with that content (possibly absent or blank), on that video, owned by the caller,
      is stored under a fresh id. Whether the video exists is not checked. */
  method AddComment(db: Db, caller: Id, videoId: RawId, content: Option<string>) returns (resp: Response)
    requires db.Valid()
    modifies db`comments, db`nextId
    ensures db.Valid()
    ensures resp.status != 200 ==> db.comments == old(db.comments) && db.nextId == old(db.nextId)
    ensures videoId.Malformed? ==> resp == Fail(400, "Invalid videoId format")
    ensures videoId.ObjectId? && content == Some("") ==> resp == Fail(400, "Comment cannot be empty")
    ensures videoId.ObjectId? && content != Some("") ==>
      var c := Comment(content, videoId.id, caller);
      && db.comments == old(db.comments)[old(db.nextId) := c]
      && db.nextId == old(db.nextId) + 1
      && resp == Reply(200, CommentDoc(old(db.nextId), c))
  {
    if videoId.Malformed? {
      return Fail(400, "Invalid videoId format");
    }
    if content == Some("") {
      return Fail(400, "Comment cannot be empty");
    }
    var c := Comment(content, videoId.id, caller);
    var id := db.NewId();
    db.comments := db.comments[id := c];
    resp := Reply(200, CommentDoc(id, c));
  }

  /** `updateComment`, checking in order: invalid id (400), content exactly "" (400), missing
      comment (404); otherwise the content is replaced when one is sent (an absent content is
      dropped from the `$set`), and nothing else changes. */
  method UpdateComment(db: Db, commentId: RawId, content: Option<string>) returns (resp: Response)
    requires db.Valid()
    modifies db`comments
    ensures db.Valid()
    ensures resp.status != 200 ==> db.comments == old(db.comments)
    ensures commentId.Malformed? ==> resp == Fail(400, "Invalid videoId format")
    ensures commentId.ObjectId? && content == Some("") ==> resp == Fail(400, "Comment cannot be empty")
    ensures commentId.ObjectId? && content != Some("") && commentId.id !in old(db.comments) ==>
      resp == Fail(404, "Comment not found!")
    ensures commentId.ObjectId? && content != Some("") && commentId.id in old(db.comments) ==>
      var before := old(db.comments)[commentId.id];
      var updated := before.(content := if content.Some? then content else before.content);
      && db.comments == old(db.comments)[commentId.id := updated]
      && resp == Reply(200, CommentDoc(commentId.id, updated))
  {
    if commentId.Malformed? {
      return Fail(400, "Invalid videoId format");
    }
    if content == Some("") {
      return Fail(400, "Comment cannot be empty");
    }
    var k := commentId.id;
    if k !in db.comments {
      return Fail(404, "Comment not found!");
    }
    var updated := db.comments[k];
    if content.Some? {
      updated := updated.(content := content);
    }
    db.comments := db.comments[k := updated];
    resp := Reply(200, CommentDoc(k, updated));
  }

  /** `deleteComment`: 400 for an invalid id, 404 for a missing comment; otherwise that comment,
      and only it, is removed. */
  method DeleteComment(db: Db, commentId: RawId) returns (resp: Response)
    requires db.Valid()
    modifies db`comments
    ensures db.Valid()
    ensures commentId.Malformed? ==> resp == Fail(400, "Invalid videoId format") && db.comments == old(db.comments)
    ensures commentId.ObjectId? && commentId.id !in old(db.comments) ==>
      resp == Fail(404, "Comment not found") && db.comments == old(db.comments)
    ensures commentId.ObjectId? && commentId.id in old(db.comments) ==>
      resp == Reply(200, NoData) && db.comments == old(db.comments) - {commentId.id}
  {
    if commentId.Malformed? {
      return Fail(400, "Invalid videoId format");
    }
    if commentId.id !in db.comments {
      return Fail(404, "Comment not found");
    }
    db.comments := db.comments - {commentId.id};
    resp := Reply(200, NoData);
  }
}

=== FILE: dashboard_controller.dfy ===
/** The channel dashboard: counts and a sum over the store, and the channel's video list. Both
    handlers only read. */
module DashboardController {
  import opened Records
  import opened Http
  import opened Tables
  import opened Store

  function OwnedBy(owner: Id): Video -> bool
  {
    (v: Video) => v.owner == owner
  }

  function ToChannel(channel: Id): Subscription -> bool
  {
    (s: Subscription) => s.channel == channel
  }

  /** `{ video: { $in: ids } }`: a like on one of the given videos. */
  function OnAnyOf(ids: set<Id>): Like -> bool
  {
    (l: Like) => l.target.OnVideo? && l.target.video in ids
  }

  /** `$sum: "$views"` over the listed videos; it is 0 exactly when none of them has a view. */
  function SumViews(m: map<Id, Video>, ks: seq<Id>): (r: nat)
    requires forall i :: 0 <= i < |ks| ==> ks[i] in m
    ensures r == 0 <==> forall i :: 0 <= i < |ks| ==> m[ks[i]].views == 0
  {
    if ks == [] then 0
    else
      assert forall i :: 1 <= i < |ks| ==> ks[i] == ks[1..][i - 1];
      m[ks[0]].views + SumViews(m, ks[1..])
  }

  /** The sum is at least the views of each listed video. */
  lemma {:induction false} SumViewsBounds(m: map<Id, Video>, ks: seq<Id>)
    requires forall i :: 0 <= i < |ks| ==> ks[i] in m
    ensures forall i :: 0 <= i < |ks| ==> m[ks[i]].views <= SumViews(m, ks)
  {
    if ks != [] {
      SumViewsBounds(m, ks[1..]);
      assert forall i :: 1 <= i < |ks| ==> ks[i] == ks[1..][i - 1];
    }
  }

  /** Summed from the front, the views equal the sum from the back: the last video adds its
      views to the sum of the others. */
  lemma {:induction false} SumViewsLast(m: map<Id, Video>, ks: seq<Id>)
    requires ks != [] && forall i :: 0 <= i < |ks| ==> ks[i] in m
    ensures SumViews(m, ks) == SumViews(m, ks[..|ks| - 1]) + m[ks[|ks| - 1]].views
  {
    if |ks| > 1 {
      SumViewsLast(m, ks[1..]);
      assert ks[1..][..|ks[1..]| - 1] == ks[..|ks| - 1][1..];
    }
  }

  /** The sum only reads the listed videos. */
  lemma {:induction false} SumViewsAgree(m: map<Id, Video>, m': map<Id, Video>, ks: seq<Id>)
    requires forall i :: 0 <= i < |ks| ==> ks[i] in m && ks[i] in m' && m[ks[i]] == m'[ks[i]]
    ensures SumViews(m, ks) == SumViews(m', ks)
  {
    if ks != [] {
      SumViewsAgree(m, m', ks[1..]);
    }
  }

  /** `totalVideoViews`: absent when the owner has no videos (the aggregate yields no group),
      otherwise the sum of their views, which bounds each one's views and is 0 exactly when
      none of them has a view. */
  function TotalViews(videos: map<Id, Video>, bound: nat, owner: Id): (r: Option<nat>)
    requires Below(videos, bound)
    ensures r.Some? ==> r.value == SumViews(videos, SelectKeys(videos, bound, OwnedBy(owner)))
    ensures r.None? <==> forall k :: k in videos ==> videos[k].owner != owner
    ensures r.Some? ==> forall k :: k in videos && videos[k].owner == owner ==> videos[k].views <= r.value
    ensures r == Some(0) <==>
      (exists k :: k in videos && videos[k].owner == owner)
      && forall k :: k in videos && videos[k].owner == owner ==> videos[k].views == 0
  {
    var owned := SelectKeys(videos, bound, OwnedBy(owner));
    SumViewsBounds(videos, owned);
    assert forall k :: k in videos && videos[k].owner == owner ==> exists i :: 0 <= i < |owned| && owned[i] == k;
    if owned == [] then None
    else
      assert videos[owned[0]].owner == owner;
      Some(SumViews(videos, owned))
  }

  /** A video stored under a fresh id joins its owner's list at the end and nobody else's,
      and the views summed over that list grow by its views. */
  lemma {:induction false} OwnedAfterNewVideo(videos: map<Id, Video>, bound: nat, owner: Id, v: Video)
    requires Below(videos, bound)
    ensures var ks := SelectKeys(videos, bound, OwnedBy(owner));
      var ks' := SelectKeys(videos[bound := v], bound + 1, OwnedBy(owner));
      && ks' == (if v.owner == owner then ks + [bound] else ks)
      && SumViews(videos[bound := v], ks') == SumViews(videos, ks) + (if v.owner == owner then v.views else 0)
  {
    var m' := videos[bound := v];
    var ks := SelectKeys(videos, bound, OwnedBy(owner));
    SelectKeysAgree(videos, m', bound, OwnedBy(owner));
    SumViewsAgree(videos, m', ks);
    if v.owner == owner {
      var ks' := ks + [bound];
      SumViewsLast(m', ks');
      assert ks'[..|ks|] == ks;
    }
  }

  /** Publishing a video under a fresh id raises its owner's total by its views, and leaves
      every other user's total as it was. */
  lemma {:induction false} TotalViewsOfNewVideo(videos: map<Id, Video>, bound: nat, owner: Id, v: Video)
    requires Below(videos, bound)
    ensures Below(videos[bound := v], bound + 1)
    ensures var before := TotalViews(videos, bound, owner);
      var after := TotalViews(videos[bound := v], bound + 1, owner);
      && (v.owner == owner ==> after.Some? && after.value == (if before.Some? then before.value else 0) + v.views)
      && (v.owner != owner ==> after == before)
  {
    var m' := videos[bound := v];
    assert Below(m', bound + 1);
    var ks := SelectKeys(videos, bound, OwnedBy(owner));
    var ks' := SelectKeys(m', bound + 1, OwnedBy(owner));
    OwnedAfterNewVideo(videos, bound, owner, v);
    var before := TotalViews(videos, bound, owner);
    var after := TotalViews(m', bound + 1, owner);
    assert before == if ks == [] then None else Some(SumViews(videos, ks));
    assert after == if ks' == [] then None else Some(SumViews(m', ks'));
    if v.owner == owner {
      assert ks' == ks + [bound];
      assert ks' != [];
      assert SumViews(m', ks') == SumViews(videos, ks) + v.views;
      assert after.Some? && after.value == SumViews(m', ks');
      assert (if before.Some? then before.value else 0) == SumViews(videos, ks);
    } else {
      assert ks' == ks && SumViews(m', ks') == SumViews(videos, ks);
    }
  }

  /** The error a handler raises when `userId` cannot be turned into an ObjectId; it reaches the
      client as a server error. */
  function CastFailure(text: string): Response
  {
    Fail(500, "Cast to ObjectId failed for value \"" + text + "\"")
  }

  /** The view total is absent exactly when the owner's video count is 0, and it is 0 exactly
      when they have videos and none of them has a view. */
  lemma TotalViewsAndCount(videos: map<Id, Video>, bound: nat, owner: Id)
    requires Below(videos, bound)
    ensures var t, n := TotalViews(videos, bound, owner), |KeysWhere(videos, OwnedBy(owner))|;
      && (t.None? <==> n == 0)
      && (t == Some(0) <==> n > 0 && forall k :: k in videos && videos[k].owner == owner ==> videos[k].views == 0)
  {
    var owned := KeysWhere(videos, OwnedBy(owner));
    if |owned| != 0 {
      var k :| k in owned;
    } else {
      assert owned == {};
      forall k | k in videos ensures videos[k].owner != owner {
        assert k !in owned;
      }
    }
  }

  /** `getChannelStats`: an id that is not an ObjectId fails with 500. Otherwise: `subscribers`
      counts the subscriptions to the channel, `totalVideos` the user's videos, `totalLikes` the
      likes on any of those videos, and `totalVideoViews` is the sum of their views, except that
      it is absent (not 0) when the user has no videos, because the empty aggregate result is
      truthy and `[][0]?.totalViews` is undefined. */
  function GetChannelStats(db: Db, userId: RawId): (r: Response)
    reads db
    requires db.Valid()
    ensures userId.Malformed? ==> r.status == 500 && r.body.Message?
    ensures userId.ObjectId? ==>
      var u := userId.id;
      && r.status == 200 && r.body.ChannelStats?
      && r.body.subscribers == |KeysWhere(db.subscriptions, ToChannel(u))|
      && r.body.totalVideos == |KeysWhere(db.videos, OwnedBy(u))|
      && r.body.totalLikes == |KeysWhere(db.likes, OnAnyOf(KeysWhere(db.videos, OwnedBy(u))))|
      && r.body.totalVideoViews == TotalViews(db.videos, db.nextId, u)
      && (r.body.totalVideoViews.None? <==> r.body.totalVideos == 0)
      && (r.body.totalVideoViews.Some? ==>
            forall k :: k in db.videos && db.videos[k].owner == u ==> db.videos[k].views <= r.body.totalVideoViews.value)
      && (r.body.totalVideoViews == Some(0) <==>
            r.body.totalVideos > 0 && forall k :: k in db.videos && db.videos[k].owner == u ==> db.videos[k].views == 0)
  {
    match userId
    case Malformed(text) => CastFailure(text)
    case ObjectId(u) =>
      var totalVideos := Count(db.videos, db.nextId, OwnedBy(u));
      var totalVideoViews := TotalViews(db.videos, db.nextId, u);
      TotalViewsAndCount(db.videos, db.nextId, u);
      Reply(200, ChannelStats(totalVideoViews,
                              Count(db.subscriptions, db.nextId, ToChannel(u)),
                              totalVideos,
                              Count(db.likes, db.nextId, OnAnyOf(KeysWhere(db.videos, OwnedBy(u))))))
  }

  /** `getChannelVideos`: an id that cannot be cast fails with 500; a user without videos gets
      200 with a message; otherwise every video of the user, in natural order. */
  function GetChannelVideos(db: Db, userId: RawId): (r: Response)
    reads db
    requires db.Valid()
    ensures userId.Malformed? ==> r.status == 500 && r.body.Message?
    ensures userId.ObjectId? && (forall k :: k in db.videos ==> db.videos[k].owner != userId.id) ==>
      r == Reply(200, Message("No videos found"))
    ensures userId.ObjectId? && (exists k :: k in db.videos && db.videos[k].owner == userId.id) ==>
      && r.status == 200 && r.body.VideoList?
      && ListsExactly(r.body.videos, db.videos, OwnedBy(userId.id))
  {
    match userId
    case Malformed(text) => CastFailure(text)
    case ObjectId(u) =>
      var videos := Find(db.videos, db.nextId, OwnedBy(u));
      EmptyListing(videos, db.videos, OwnedBy(u));
      if |videos| == 0 then Reply(200, Message("No videos found")) else Reply(200, VideoList(videos))
  }
}

=== FILE: http.dfy ===
/** What a handler answers: a status code, a payload and what it does to the session cookies. */
module Http {
  import opened Records

  datatype Cookies =
    | Untouched
    | SetTokens(accessToken: string, refreshToken: string)
    | Cleared

  /** A liked-video entry of `getLikedVideos`, with its `video` populated (absent when the
      liked video has since been deleted). */
  datatype LikedEntry = LikedEntry(likeId: Id, likedBy: Id, video: Id, videoDoc: Option<Video>)

  datatype Body =
    | Message(text: string)
    | NoData
    | Profile(user: UserView)
    | Session(user: UserView, accessToken: string, refreshToken: string)
    | LikeState(isliked: bool)
    | FirstLiked(entry: Option<LikedEntry>)
    | SubscriptionState(issubscribed: bool)
    | SubscriberEntry(subscriptionId: Id, subscriber: UserSummary, totalSubscriber: nat)
    | ChannelEntry(subscriptionId: Id, channel: UserSummary, totalChannelSubscribed: nat)
    | PlaylistDoc(playlistId: Id, playlist: Playlist)
    | PlaylistList(playlists: seq<(Id, Playlist)>)
    | VideoDoc(videoId: Id, video: Video)
    | VideoPage(videos: seq<(Id, Video)>, videoCount: nat)
    | VideoList(videos: seq<(Id, Video)>)
    | CommentDoc(commentId: Id, comment: Comment)
    | CommentPage(comments: seq<(Id, Comment)>, commentCount: nat)
    | TweetDoc(tweetId: Id, tweet: Tweet)
    | TweetList(tweets: seq<(Id, Tweet)>)
    | ChannelStats(totalVideoViews: Option<nat>, subscribers: nat, totalVideos: nat, totalLikes: nat)

  datatype Response = Response(status: int, body: Body, cookies: Cookies)

  function Reply(status: int, body: Body): Response
  {
    Response(status, body, Untouched)
  }

  /** An error answer; an `ApiError` thrown by a handler reaches the client the same way. */
  function Fail(status: int, message: string): Response
  {
    Response(status, Message(message), Untouched)
  }
}

=== FILE: like_controller.dfy ===
/** Likes on videos, comments and tweets: each toggle adds the caller's like on a target when it
    is missing and removes it when it is there, then reports whether it is there now. */
module LikeController {
  import opened Records
  import opened Http
  import opened Tables
  import opened Toggles
  import opened Store

  /** The find-then-create-or-delete of the three toggles, followed by the re-read that answers
      `isliked`. */
  method ToggleLike(db: Db, caller: Id, target: LikeTarget) returns (isliked: bool)
    requires db.Valid()
    modifies db`likes, db`nextId
    ensures db.Valid()
    ensures ToggleStep(old(db.likes), old(db.nextId), db.likes, db.nextId, Like(caller, target))
    ensures db.likes.Values == Toggled(old(db.likes).Values, Like(caller, target))
    ensures isliked <==> Like(caller, target) in db.likes.Values
  {
    var pair := Like(caller, target);
    var existing := FindFirst(db.likes, db.nextId, Is(pair));
    if existing.None? {
      var id := db.NewId();
      db.likes := db.likes[id := pair];
    } else {
      db.likes := db.likes - {existing.value};
    }
    ToggleKeepsDistinct(old(db.likes), old(db.nextId), db.likes, db.nextId, pair);
    var after := FindFirst(db.likes, db.nextId, Is(pair));
    isliked := after.Some?;
    assert isliked ==> db.likes[after.value] == pair;
  }

  /** `toggleVideoLike`: an id that is not an ObjectId answers 400 and changes nothing;
      otherwise the caller's like on the video is toggled and its new presence reported. */
  method ToggleVideoLike(db: Db, caller: Id, videoId: RawId) returns (resp: Response)
    requires db.Valid()
    modifies db`likes, db`nextId
    ensures db.Valid()
    ensures videoId.Malformed? ==>
      resp == Fail(400, "Invalid videoId format") && db.likes == old(db.likes) && db.nextId == old(db.nextId)
    ensures videoId.ObjectId? ==>
      var pair := Like(caller, OnVideo(videoId.id));
      && ToggleStep(old(db.likes), old(db.nextId), db.likes, db.nextId, pair)
      && db.likes.Values == Toggled(old(db.likes).Values, pair)
      && resp == Reply(200, LikeState(pair in db.likes.Values))
  {
    if videoId.Malformed? {
      return Fail(400, "Invalid videoId format");
    }
    var isliked := ToggleLike(db, caller, OnVideo(videoId.id));
    resp := Reply(200, LikeState(isliked));
  }

  /** `toggleCommentLike`, the same keyed on the comment. */
  method ToggleCommentLike(db: Db, caller: Id, commentId: RawId) returns (resp: Response)
    requires db.Valid()
    modifies db`likes, db`nextId
    ensures db.Valid()
    ensures commentId.Malformed? ==>
      resp == Fail(400, "Invalid commentId format") && db.likes == old(db.likes) && db.nextId == old(db.nextId)
    ensures commentId.ObjectId? ==>
      var pair := Like(caller, OnComment(commentId.id));
      && ToggleStep(old(db.likes), old(db.nextId), db.likes, db.nextId, pair)
      && db.likes.Values == Toggled(old(db.likes).Values, pair)
      && resp == Reply(200, LikeState(pair in db.likes.Values))
  {
    if commentId.Malformed? {
      return Fail(400, "Invalid commentId format");
    }
    var isliked := ToggleLike(db, caller, OnComment(commentId.id));
    resp := Reply(200, LikeState(isliked));
  }

  /** `toggleTweetLike`, the same keyed on the tweet; its invalid-id message names the comment id. */
  method ToggleTweetLike(db: Db, caller: Id, tweetId: RawId) returns (resp: Response)
    requires db.Valid()
    modifies db`likes, db`nextId
    ensures db.Valid()
    ensures tweetId.Malformed? ==>
      resp == Fail(400, "Invalid commentId format") && db.likes == old(db.likes) && db.nextId == old(db.nextId)
    ensures tweetId.ObjectId? ==>
      var pair := Like(caller, OnTweet(tweetId.id));
      && ToggleStep(old(db.likes), old(db.nextId), db.likes, db.nextId, pair)
      && db.likes.Values == Toggled(old(db.likes).Values, pair)
      && resp == Reply(200, LikeState(pair in db.likes.Values))
  {
    if tweetId.Malformed? {
      return Fail(400, "Invalid commentId format");
    }
    var isliked := ToggleLike(db, caller, OnTweet(tweetId.id));
    resp := Reply(200, LikeState(isliked));
  }

  /** Toggling a video like twice: the first answer is the negation of the prior state, the two
      answers differ, the likes of other users and other targets are never touched, and the set
      of (user, target) pairs is restored (the record may come back under a new id). */
  method ToggleVideoLikeTwice(db: Db, caller: Id, videoId: Id) returns (r1: Response, r2: Response)
    requires db.Valid()
    modifies db`likes, db`nextId
    ensures db.Valid()
    ensures r1.status == 200 && r2.status == 200
    ensures r1.body == LikeState(Like(caller, OnVideo(videoId)) !in old(db.likes).Values)
    ensures r2.body == LikeState(!r1.body.isliked)
    ensures db.likes.Values == old(db.likes).Values
    ensures forall k :: k in old(db.likes) && old(db.likes)[k] != Like(caller, OnVideo(videoId)) ==>
      k in db.likes && db.likes[k] == old(db.likes)[k]
  {
    var pair := Like(caller, OnVideo(videoId));
    ghost var likes0, bound0 := db.likes, db.nextId;
    r1 := ToggleVideoLike(db, caller, ObjectId(videoId));
    ToggleEffect(likes0, bound0, db.likes, db.nextId, pair);
    ghost var likes1, bound1 := db.likes, db.nextId;
    r2 := ToggleVideoLike(db, caller, ObjectId(videoId));
    ToggleEffect(likes1, bound1, db.likes, db.nextId, pair);
    ToggledTwice(likes0.Values, pair);
  }

  /** The filter `{ likedBy: caller, video: { $exists: true, $ne: null } }`. */
  function VideoLikeBy(caller: Id): Like -> bool
  {
    (l: Like) => l.likedBy == caller && l.target.OnVideo?
  }

  /** `getLikedVideos`: answers 200 with only the first of the caller's video likes in natural
      order, its `video` populated (absent when that video is gone), or with no entry when the
      caller likes no video. Likes on comments and tweets are never returned. */
  method GetLikedVideos(db: Db, caller: Id) returns (resp: Response)
    requires db.Valid()
    ensures resp.status == 200 && resp.body.FirstLiked? && resp.cookies == Untouched
    ensures resp.body.entry.None? <==> forall k :: k in db.likes ==> !(db.likes[k].likedBy == caller && db.likes[k].target.OnVideo?)
    ensures resp.body.entry.Some? ==>
      var e := resp.body.entry.value;
      && e.likeId in db.likes && e.likedBy == caller && db.likes[e.likeId] == Like(caller, OnVideo(e.video))
      && (forall k :: k in db.likes && k < e.likeId ==> !(db.likes[k].likedBy == caller && db.likes[k].target.OnVideo?))
      && (e.video in db.videos ==> e.videoDoc == Some(db.videos[e.video]))
      && (e.video !in db.videos ==> e.videoDoc == None)
  {
    var first := FindFirst(db.likes, db.nextId, VideoLikeBy(caller));
    if first.None? {
      return Reply(200, FirstLiked(None));
    }
    var like := db.likes[first.value];
    var video := like.target.video;
    var doc := if video in db.videos then Some(db.videos[video]) else None;
    resp := Reply(200, FirstLiked(Some(LikedEntry(first.value, caller, video, doc))));
  }
}

=== FILE: ordering.dfy ===
/** The `sort` that `getAllVideos` builds from `sortBy` and `sortType`. */
module Ordering {
  import opened Records

  /** No sort at all, or a sort on one field in one direction. */
  datatype SortOrder = Natural | ByField(field: string, ascending: bool)

  /** `sortBy` selects the field; `sortType` "asc" sorts ascending and any other value descending. */
  function OrderOf(sortBy: Option<string>, sortType: Option<string>): (r: SortOrder)
    ensures r.Natural? <==> !Truthy(sortBy)
    ensures r.ByField? ==> r.field == sortBy.value && (r.ascending <==> sortType == Some("asc"))
  {
    if Truthy(sortBy) then ByField(sortBy.value, sortType == Some("asc")) else Natural
  }

  predicate InOrder(a: int, b: int, ascending: bool)
  {
    if ascending then a <= b else b <= a
  }

  ghost predicate SortedBy<T>(s: seq<T>, key: T -> int, ascending: bool)
  {
    forall i, j :: 0 <= i < j < |s| ==> InOrder(key(s[i]), key(s[j]), ascending)
  }

  function Insert<T(==)>(x: T, s: seq<T>, key: T -> int, ascending: bool): (r: seq<T>)
    requires SortedBy(s, key, ascending)
    ensures SortedBy(r, key, ascending)
    ensures multiset(r) == multiset(s) + multiset{x}
  {
    if s == [] || InOrder(key(x), key(s[0]), ascending) then
      ConsSorted(x, s, key, ascending);
      [x] + s
    else
      var t := Insert(x, s[1..], key, ascending);
      assert s == [s[0]] + s[1..];
      HeadPrecedesAll(s[0], x, s[1..], t, key, ascending);
      ConsSorted(s[0], t, key, ascending);
      [s[0]] + t
  }

  /** Putting an element in order before every element of a sorted list in front of it keeps
      the list sorted. */
  lemma ConsSorted<T>(h: T, t: seq<T>, key: T -> int, ascending: bool)
    requires SortedBy(t, key, ascending)
    requires t == [] || InOrder(key(h), key(t[0]), ascending)
    ensures SortedBy([h] + t, key, ascending)
  {
    var r := [h] + t;
    forall i, j | 0 <= i < j < |r| ensures InOrder(key(r[i]), key(r[j]), ascending) {
      if i == 0 && j > 1 {
        assert InOrder(key(t[0]), key(t[j - 1]), ascending);
      }
    }
  }

  /** An element in order before every element of `rest` and before `x` is in order before
      every element of any rearrangement of `rest` with `x` added. */
  lemma HeadPrecedesAll<T>(h: T, x: T, rest: seq<T>, t: seq<T>, key: T -> int, ascending: bool)
    requires forall j :: 0 <= j < |rest| ==> InOrder(key(h), key(rest[j]), ascending)
    requires InOrder(key(h), key(x), ascending)
    requires multiset(t) == multiset(rest) + multiset{x}
    ensures forall j :: 0 <= j < |t| ==> InOrder(key(h), key(t[j]), ascending)
  {
    forall j | 0 <= j < |t| ensures InOrder(key(h), key(t[j]), ascending) {
      assert t[j] in multiset(t);
      if t[j] != x {
        assert t[j] in multiset(rest);
        var k :| 0 <= k < |rest| && rest[k] == t[j];
      }
    }
  }

  /** Orders `s` by `key` in the given direction, keeping every element. */
  function Sort<T(==)>(s: seq<T>, key: T -> int, ascending: bool): (r: seq<T>)
    ensures SortedBy(r, key, ascending)
    ensures multiset(r) == multiset(s)
  {
    if s == [] then []
    else
      assert s == [s[0]] + s[1..];
      Insert(s[0], Sort(s[1..], key, ascending), key, ascending)
  }

  /** The sort key a field name selects. */
  function KeyOf<T>(key: (string, T) -> int, field: string): T -> int
  {
    x => key(field, x)
  }

  /** `r` holds the entries of `s` in the order `order` asks for: unchanged for the natural
      order, sorted on the field otherwise. */
  ghost predicate ArrangedAs<T>(r: seq<T>, s: seq<T>, order: SortOrder, key: (string, T) -> int)
  {
    && multiset(r) == multiset(s)
    && (order.Natural? ==> r == s)
    && (order.ByField? ==> SortedBy(r, KeyOf(key, order.field), order.ascending))
  }

  /** Applies a sort order: the natural order is left as it is; a field order sorts on that
      field. Either way the same documents come out. */
  function Arrange<T(==)>(s: seq<T>, order: SortOrder, key: (string, T) -> int): (r: seq<T>)
    ensures multiset(r) == multiset(s)
    ensures order.Natural? ==> r == s
    ensures order.ByField? ==> SortedBy(r, KeyOf(key, order.field), order.ascending)
  {
    match order
    case Natural => s
    case ByField(field, ascending) => Sort(s, KeyOf(key, field), ascending)
  }
}

=== FILE: paging.dfy ===
/** The `page`/`limit` query parameters and the `skip((page - 1) * limit).limit(limit)` window
    that `getAllVideos` and `getVideoComments` apply to a query result. */
module Paging {
  import opened Records
  import opened Text
  import opened Ordering

  datatype Paging = Paging(page: nat, size: nat)

  function Min(a: int, b: int): int
  {
    if a <= b then a else b
  }

  /** The text `parseInt` reads: the query value, or the default number turned into a string. */
  function QueryText(param: Option<string>, default: nat): string
  {
    match param
    case Some(s) => s
    case None => Decimal(default)
  }

  /** `page` (default 1) and `limit` (default 10) through `parseInt`; NaN or a value below 1
      is rejected with 400, the page before the limit. */
  function ParsePaging(page: Option<string>, limit: Option<string>): (r: Result<Paging>)
    ensures r.Ok? ==> r.value.page >= 1 && r.value.size >= 1
    ensures r.Err? ==> r.status == 400
    ensures var p, l := ParseInt(QueryText(page, 1)), ParseInt(QueryText(limit, 10));
      && (r.Ok? <==> p.Some? && p.value >= 1 && l.Some? && l.value >= 1)
      && (r.Ok? ==> r.value == Paging(p.value, l.value))
      && (p.None? || p.value < 1 ==> r == Err(400, "Invalid page number"))
      && (p.Some? && p.value >= 1 && (l.None? || l.value < 1) ==> r == Err(400, "Invalid limit"))
  {
    var pageNumber := ParseInt(QueryText(page, 1));
    var pageSize := ParseInt(QueryText(limit, 10));
    if pageNumber.None? || pageNumber.value < 1 then Err(400, "Invalid page number")
    else if pageSize.None? || pageSize.value < 1 then Err(400, "Invalid limit")
    else Ok(Paging(pageNumber.value, pageSize.value))
  }

  /** Without `page` and `limit` the first ten results are asked for. */
  lemma DefaultPaging()
    ensures ParsePaging(None, None) == Ok(Paging(1, 10))
  {
    ParseIntDecimal(1, "");
    ParseIntDecimal(10, "");
    assert Decimal(1) + "" == Decimal(1) && Decimal(10) + "" == Decimal(10);
  }

  /** Numerals are accepted exactly when both are at least 1; "0" is rejected, the page first. */
  lemma NumeralPaging(page: nat, limit: nat)
    ensures ParsePaging(Some(Decimal(page)), Some(Decimal(limit))) ==
      if page < 1 then Err(400, "Invalid page number")
      else if limit < 1 then Err(400, "Invalid limit")
      else Ok(Paging(page, limit))
  {
    ParseIntDecimal(page, "");
    ParseIntDecimal(limit, "");
    assert Decimal(page) + "" == Decimal(page) && Decimal(limit) + "" == Decimal(limit);
  }

  /** `parseInt` is lenient: a number followed by other text is accepted as that number, a
      negative number (or "-0") is rejected as below 1, and text that starts with no digit
      or sign is NaN and rejected, whatever the limit. */
  lemma LenientPaging(n: nat, rest: string, s: string, limit: Option<string>)
    requires rest == [] || !IsDigit(rest[0], 10)
    requires n == 0 ==> rest == [] || (rest[0] != 'x' && rest[0] != 'X')
    ensures n >= 1 ==> ParsePaging(Some(Decimal(n) + rest), None) == Ok(Paging(n, 10))
    ensures ParsePaging(Some("-" + (Decimal(n) + rest)), limit) == Err(400, "Invalid page number")
    ensures s != [] && !IsSpace(s[0]) && s[0] != '-' && s[0] != '+' && !IsDigit(s[0], 10) ==>
      ParsePaging(Some(s), limit) == Err(400, "Invalid page number")
  {
    ParseIntDecimal(n, rest);
    ParseIntDecimal(10, "");
    assert Decimal(10) + "" == Decimal(10);
    var d := Decimal(n) + rest;
    assert d[0] == Decimal(n)[0];
    ParseIntNegated(d);
    if s != [] && !IsSpace(s[0]) && s[0] != '-' && s[0] != '+' && !IsDigit(s[0], 10) {
      ParseIntWithoutDigits(s);
    }
  }

  /** How many results the window skips. */
  function Skip(pg: Paging): nat
    requires pg.page >= 1
  {
    (pg.page - 1) * pg.size
  }

  /** `skip(Skip(pg)).limit(pg.size)`: at most `pg.size` consecutive results starting at
      offset `Skip(pg)`; nothing once the offset is past the end. */
  function Page<T>(items: seq<T>, pg: Paging): (r: seq<T>)
    requires pg.page >= 1 && pg.size >= 1
    ensures |r| <= pg.size
    ensures Skip(pg) >= |items| ==> r == []
    ensures Skip(pg) < |items| ==> |r| == Min(pg.size, |items| - Skip(pg))
    ensures forall i :: 0 <= i < |r| ==> Skip(pg) + i < |items| && r[i] == items[Skip(pg) + i]
  {
    items[Min(Skip(pg), |items|)..Min(Skip(pg) + pg.size, |items|)]
  }

  /** A window of a list in increasing id order is in increasing id order. */
  lemma PageOfIncreasing<T>(items: seq<(Id, T)>, pg: Paging)
    requires pg.page >= 1 && pg.size >= 1
    requires forall i, j :: 0 <= i < j < |items| ==> items[i].0 < items[j].0
    ensures var r := Page(items, pg); forall i, j :: 0 <= i < j < |r| ==> r[i].0 < r[j].0
  {
    var r := Page(items, pg);
    assert forall i :: 0 <= i < |r| ==> r[i] == items[Skip(pg) + i];
  }

  /** A window of a sorted list is sorted the same way. */
  lemma PageOfSorted<T>(items: seq<T>, pg: Paging, key: T -> int, ascending: bool)
    requires pg.page >= 1 && pg.size >= 1
    requires SortedBy(items, key, ascending)
    ensures SortedBy(Page(items, pg), key, ascending)
  {
    var r := Page(items, pg);
    assert forall i :: 0 <= i < |r| ==> r[i] == items[Skip(pg) + i];
  }

  /** Result `i` is at position `i % size` of page `i / size + 1`. */
  lemma ItemOnItsPage<T>(items: seq<T>, size: nat, i: nat)
    requires size >= 1 && i < |items|
    ensures var pg := Paging(i / size + 1, size);
      i % size < |Page(items, pg)| && Page(items, pg)[i % size] == items[i]
  {
    var pg := Paging(i / size + 1, size);
    assert Skip(pg) == (i / size) * size;
    assert Skip(pg) + i % size == i;
  }

  /** Pages 1 to k, one after the other. */
  function FirstPages<T>(items: seq<T>, size: nat, k: nat): seq<T>
    requires size >= 1
  {
    if k == 0 then [] else FirstPages(items, size, k - 1) + Page(items, Paging(k, size))
  }

  /** Reading pages 1, 2, ..., k in turn yields the first `k * size` results, in order, with
      nothing skipped or repeated. */
  lemma {:induction false} FirstPagesArePrefix<T>(items: seq<T>, size: nat, k: nat)
    requires size >= 1
    ensures FirstPages(items, size, k) == items[..Min(k * size, |items|)]
  {
    if k > 0 {
      FirstPagesArePrefix(items, size, k - 1);
      NextMultiple(k, size);
      PageExtendsPrefix(items, Paging(k, size), (k - 1) * size, k * size);
    }
  }

  /** The results before a page's offset followed by that page are the results before the
      next page's offset. */
  lemma PageExtendsPrefix<T>(items: seq<T>, pg: Paging, start: nat, end: nat)
    requires pg.page >= 1 && pg.size >= 1
    requires Skip(pg) == start && end == start + pg.size
    ensures items[..Min(start, |items|)] + Page(items, pg) == items[..Min(end, |items|)]
  {
    var lo, hi := Min(start, |items|), Min(end, |items|);
    assert Page(items, pg) == items[lo..hi];
    assert items[..lo] + items[lo..hi] == items[..hi];
  }

  /** The offset after `k` pages is the offset after `k - 1` pages plus one page. */
  lemma NextMultiple(k: nat, size: nat)
    requires k > 0
    ensures 0 <= (k - 1) * size && (k - 1) * size + size == k * size
  {
  }
}

=== FILE: playlist_controller.dfy ===
/** Playlists and their `videos` list, which the add and remove handlers keep as a list of
    distinct video ids in the order they were added. */
module PlaylistController {
  import opened Records
  import opened Http
  import opened Tables
  import opened Store

  /** No video id occurs twice in the list. */
  predicate NoDuplicates(s: seq<Id>)
  {
    forall i, j :: 0 <= i < j < |s| ==> s[i] != s[j]
  }

  /** `$pull: { videos: x }`: every occurrence of `x` removed, the other entries kept with their
      multiplicities. */
  function RemoveAll(s: seq<Id>, x: Id): (r: seq<Id>)
    ensures x !in r
    ensures forall y :: y != x ==> multiset(r)[y] == multiset(s)[y]
    ensures |r| == |s| - multiset(s)[x]
  {
    if s == [] then []
    else
      assert s == [s[0]] + s[1..];
      if s[0] == x then RemoveAll(s[1..], x) else [s[0]] + RemoveAll(s[1..], x)
  }

  /** Removing distributes over concatenation, so the remaining entries keep their order. */
  lemma {:induction false} RemoveAllAppend(a: seq<Id>, b: seq<Id>, x: Id)
    ensures RemoveAll(a + b, x) == RemoveAll(a, x) + RemoveAll(b, x)
    decreases |a|
  {
    if a == [] {
      assert a + b == b;
    } else {
      assert (a + b)[1..] == a[1..] + b;
      assert (a + b)[0] == a[0];
      RemoveAllAppend(a[1..], b, x);
    }
  }

  /** Removing an id that is not in the list leaves the list as it was. */
  lemma {:induction false} RemoveAllAbsent(s: seq<Id>, x: Id)
    requires x !in s
    ensures RemoveAll(s, x) == s
  {
    if s != [] {
      RemoveAllAbsent(s[1..], x);
      assert s == [s[0]] + s[1..];
    }
  }

  /** Removing twice is removing once. */
  lemma RemoveAllIdempotent(s: seq<Id>, x: Id)
    ensures RemoveAll(RemoveAll(s, x), x) == RemoveAll(s, x)
  {
    RemoveAllAbsent(RemoveAll(s, x), x);
  }

  /** Appending an id the list does not hold and then removing it gives back the list. */
  lemma AddThenRemove(s: seq<Id>, x: Id)
    requires x !in s
    ensures RemoveAll(s + [x], x) == s
  {
    RemoveAllAppend(s, [x], x);
    RemoveAllAbsent(s, x);
    assert RemoveAll([x], x) == [];
  }

  /** Appending an id the list does not hold keeps it free of duplicates and grows it by one. */
  lemma AppendKeepsNoDuplicates(s: seq<Id>, x: Id)
    requires NoDuplicates(s) && x !in s
    ensures NoDuplicates(s + [x]) && |s + [x]| == |s| + 1 && (s + [x])[|s|] == x
  {
  }

  /** Removing keeps a duplicate-free list duplicate-free: it drops the one occurrence, if any. */
  lemma {:induction false} RemoveAllKeepsNoDuplicates(s: seq<Id>, x: Id)
    requires NoDuplicates(s)
    ensures NoDuplicates(RemoveAll(s, x))
    ensures |RemoveAll(s, x)| == if x in s then |s| - 1 else |s|
  {
    if s != [] {
      assert s == [s[0]] + s[1..];
      RemoveAllKeepsNoDuplicates(s[1..], x);
      var t := RemoveAll(s[1..], x);
      if s[0] != x {
        assert s[0] !in s[1..];
        assert multiset(t)[s[0]] == 0;
        assert s[0] !in t;
      }
    }
  }

  /** `createPlaylist`: without a name, 400 and nothing is created; otherwise the playlist is
      created with the given name and description and an empty list, and then its owner is set
      to the caller. */
  method CreatePlaylist(db: Db, caller: Id, name: Option<string>, description: Option<string>)
    returns (resp: Response)
    requires db.Valid()
    modifies db`playlists, db`nextId
    ensures db.Valid()
    ensures !Truthy(name) ==>
      resp == Fail(400, "Name is required to create playlist!")
      && db.playlists == old(db.playlists) && db.nextId == old(db.nextId)
    ensures Truthy(name) ==>
      var p := Playlist(name.value, description, Some(caller), []);
      && db.playlists == old(db.playlists)[old(db.nextId) := p]
      && db.nextId == old(db.nextId) + 1
      && resp == Reply(200, PlaylistDoc(old(db.nextId), p))
  {
    if !Truthy(name) {
      return Fail(400, "Name is required to create playlist!");
    }
    var id := db.NewId();
    db.playlists := db.playlists[id := Playlist(name.value, description, None, [])];
    var p := db.playlists[id].(owner := Some(caller));
    db.playlists := db.playlists[id := p];
    resp := Reply(200, PlaylistDoc(id, p));
  }

  function OwnedBy(owner: Id): Playlist -> bool
  {
    (p: Playlist) => p.owner == Some(owner)
  }

  /** `getUserPlaylists`: 400 for an invalid id, 400 when the user owns no playlist, otherwise
      every playlist the user owns, in natural order. */
  method GetUserPlaylists(db: Db, userId: RawId) returns (resp: Response)
    requires db.Valid()
    ensures userId.Malformed? ==> resp == Fail(400, "Invalid userId format")
    ensures userId.ObjectId? && (forall k :: k in db.playlists ==> db.playlists[k].owner != Some(userId.id)) ==>
      resp == Fail(400, "playlist not found")
    ensures userId.ObjectId? && (exists k :: k in db.playlists && db.playlists[k].owner == Some(userId.id)) ==>
      && resp.status == 200 && resp.body.PlaylistList?
      && ListsExactly(resp.body.playlists, db.playlists, OwnedBy(userId.id))
  {
    if userId.Malformed? {
      return Fail(400, "Invalid userId format");
    }
    var found := Find(db.playlists, db.nextId, OwnedBy(userId.id));
    EmptyListing(found, db.playlists, OwnedBy(userId.id));
    if |found| == 0 {
      return Fail(400, "playlist not found");
    }
    resp := Reply(200, PlaylistList(found));
  }

  /** `getPlaylistById`: 400 for an invalid id or a missing playlist, otherwise that playlist. */
  method GetPlaylistById(db: Db, playlistId: RawId) returns (resp: Response)
    requires db.Valid()
    ensures playlistId.Malformed? ==> resp == Fail(400, "Invalid userId format")
    ensures playlistId.ObjectId? && playlistId.id !in db.playlists ==> resp == Fail(400, "playlist not found")
    ensures playlistId.ObjectId? && playlistId.id in db.playlists ==>
      resp == Reply(200, PlaylistDoc(playlistId.id, db.playlists[playlistId.id]))
  {
    if playlistId.Malformed? {
      return Fail(400, "Invalid userId format");
    }
    if playlistId.id !in db.playlists {
      return Fail(400, "playlist not found");
    }
    resp := Reply(200, PlaylistDoc(playlistId.id, db.playlists[playlistId.id]));
  }

  /** `addVideoToPlaylist`, checking in order: either id invalid, playlist missing, video
      missing, video already listed (each 400, nothing changed); otherwise the video id is
      appended to the list, which grows by exactly one and stays free of duplicates. */
  method AddVideoToPlaylist(db: Db, playlistId: RawId, videoId: RawId) returns (resp: Response)
    requires db.Valid()
    modifies db`playlists
    ensures db.Valid()
    ensures resp.status != 200 ==> db.playlists == old(db.playlists)
    ensures playlistId.Malformed? || videoId.Malformed? ==> resp == Fail(400, "Invalid userId format")
    ensures playlistId.ObjectId? && videoId.ObjectId? ==>
      var p, v := playlistId.id, videoId.id;
      && (p !in old(db.playlists) ==> resp == Fail(400, "playlist not found"))
      && (p in old(db.playlists) && v !in db.videos ==> resp == Fail(400, "video not found"))
      && (p in old(db.playlists) && v in db.videos && v in old(db.playlists)[p].videos ==>
            resp == Fail(400, "Video already in the playlist"))
      && (p in old(db.playlists) && v in db.videos && v !in old(db.playlists)[p].videos ==>
            var updated := old(db.playlists)[p].(videos := old(db.playlists)[p].videos + [v]);
            && db.playlists == old(db.playlists)[p := updated]
            && resp == Reply(200, PlaylistDoc(p, updated))
            && |updated.videos| == |old(db.playlists)[p].videos| + 1
            && (NoDuplicates(old(db.playlists)[p].videos) ==> NoDuplicates(updated.videos)))
  {
    if playlistId.Malformed? || videoId.Malformed? {
      return Fail(400, "Invalid userId format");
    }
    var p, v := playlistId.id, videoId.id;
    if p !in db.playlists {
      return Fail(400, "playlist not found");
    }
    if v !in db.videos {
      return Fail(400, "video not found");
    }
    var playlist := db.playlists[p];
    if v in playlist.videos {
      return Fail(400, "Video already in the playlist");
    }
    if NoDuplicates(playlist.videos) {
      AppendKeepsNoDuplicates(playlist.videos, v);
    }
    playlist := playlist.(videos := playlist.videos + [v]);
    db.playlists := db.playlists[p := playlist];
    resp := Reply(200, PlaylistDoc(p, playlist));
  }

  /** `removeVideoFromPlaylist`: 400 for either id invalid or a missing playlist; otherwise every
      occurrence of the video id is pulled from the list. Whether the video exists is not
      checked, so pulling an id the list does not hold answers 200 with the list unchanged. */
  method RemoveVideoFromPlaylist(db: Db, playlistId: RawId, videoId: RawId) returns (resp: Response)
    requires db.Valid()
    modifies db`playlists
    ensures db.Valid()
    ensures resp.status != 200 ==> db.playlists == old(db.playlists)
    ensures playlistId.Malformed? || videoId.Malformed? ==> resp == Fail(400, "Invalid userId format")
    ensures playlistId.ObjectId? && videoId.ObjectId? ==>
      var p, v := playlistId.id, videoId.id;
      && (p !in old(db.playlists) ==> resp == Fail(400, "playlist not found!"))
      && (p in old(db.playlists) ==>
            var updated := old(db.playlists)[p].(videos := RemoveAll(old(db.playlists)[p].videos, v));
            && db.playlists == old(db.playlists)[p := updated]
            && resp == Reply(200, PlaylistDoc(p, updated))
            && (v !in old(db.playlists)[p].videos ==> updated == old(db.playlists)[p])
            && (NoDuplicates(old(db.playlists)[p].videos) ==> NoDuplicates(updated.videos)))
  {
    if playlistId.Malformed? || videoId.Malformed? {
      return Fail(400, "Invalid userId format");
    }
    var p, v := playlistId.id, videoId.id;
    if p !in db.playlists {
      return Fail(400, "playlist not found!");
    }
    var playlist := db.playlists[p];
    if v !in playlist.videos {
      RemoveAllAbsent(playlist.videos, v);
    }
    if NoDuplicates(playlist.videos) {
      RemoveAllKeepsNoDuplicates(playlist.videos, v);
    }
    playlist := playlist.(videos := RemoveAll(playlist.videos, v));
    db.playlists := db.playlists[p := playlist];
    resp := Reply(200, PlaylistDoc(p, playlist));
  }

  /** Adding a video and then removing it restores the playlist as it was. */
  method AddThenRemoveVideo(db: Db, p: Id, v: Id) returns (r1: Response, r2: Response)
    requires db.Valid() && p in db.playlists && v in db.videos && v !in db.playlists[p].videos
    modifies db`playlists
    ensures db.Valid()
    ensures r1.status == 200 && r2.status == 200
    ensures db.playlists == old(db.playlists)
  {
    ghost var start := db.playlists;
    ghost var before := start[p];
    ghost var added := before.(videos := before.videos + [v]);
    r1 := AddVideoToPlaylist(db, ObjectId(p), ObjectId(v));
    assert db.playlists == start[p := added];
    r2 := RemoveVideoFromPlaylist(db, ObjectId(p), ObjectId(v));
    AddThenRemove(before.videos, v);
    assert added.(videos := RemoveAll(added.videos, v)) == before;
    assert db.playlists == start[p := added][p := before];
    RestoredEntry(start, p, added);
  }

  /** `updatePlaylist`, checking in order: invalid id, missing name, missing playlist (each 400,
      nothing changed); otherwise only the name and, when one is sent, the description change
      (an absent description is dropped from the `$set`). */
  method UpdatePlaylist(db: Db, playlistId: RawId, name: Option<string>, description: Option<string>)
    returns (resp: Response)
    requires db.Valid()
    modifies db`playlists
    ensures db.Valid()
    ensures resp.status != 200 ==> db.playlists == old(db.playlists)
    ensures playlistId.Malformed? ==> resp == Fail(400, "Invalid userId format")
    ensures playlistId.ObjectId? && !Truthy(name) ==> resp == Fail(400, "Name filed is required")
    ensures playlistId.ObjectId? && Truthy(name) && playlistId.id !in old(db.playlists) ==>
      resp == Fail(400, "Playlist not found")
    ensures playlistId.ObjectId? && Truthy(name) && playlistId.id in old(db.playlists) ==>
      var p := playlistId.id;
      var before := old(db.playlists)[p];
      var updated := before.(name := name.value, description := if description.Some? then description else before.description);
      && db.playlists == old(db.playlists)[p := updated]
      && resp == Reply(200, PlaylistDoc(p, updated))
  {
    if playlistId.Malformed? {
      return Fail(400, "Invalid userId format");
    }
    if !Truthy(name) {
      return Fail(400, "Name filed is required");
    }
    var p := playlistId.id;
    if p !in db.playlists {
      return Fail(400, "Playlist not found");
    }
    var playlist := db.playlists[p].(name := name.value);
    if description.Some? {
      playlist := playlist.(description := description);
    }
    db.playlists := db.playlists[p := playlist];
    resp := Reply(200, PlaylistDoc(p, playlist));
  }

  /** `deletePlaylist`: 400 for an invalid id or a missing playlist; otherwise that playlist,
      and only it, is removed. */
  method DeletePlaylist(db: Db, playlistId: RawId) returns (resp: Response)
    requires db.Valid()
    modifies db`playlists
    ensures db.Valid()
    ensures playlistId.Malformed? ==> resp == Fail(400, "Invalid userId format") && db.playlists == old(db.playlists)
    ensures playlistId.ObjectId? && playlistId.id !in old(db.playlists) ==>
      resp == Fail(400, "Playlist not found") && db.playlists == old(db.playlists)
    ensures playlistId.ObjectId? && playlistId.id in old(db.playlists) ==>
      resp == Reply(200, NoData) && db.playlists == old(db.playlists) - {playlistId.id}
  {
    if playlistId.Malformed? {
      return Fail(400, "Invalid userId format");
    }
    if playlistId.id !in db.playlists {
      return Fail(400, "Playlist not found");
    }
    db.playlists := db.playlists - {playlistId.id};
    resp := Reply(200, NoData);
  }
}

=== FILE: records.dfy ===
/** The documents the handlers read and write, and the small value types shared by every controller. */
module Records {

  /** A document id (a Mongo ObjectId). Ids are handed out in increasing order, so the
      natural order of a collection is ascending id order. */
  type Id = nat

  datatype Option<T> = None | Some(value: T)

  /** A check that either passes with a value or stops the handler with a status code and message. */
  datatype Result<T> = Ok(value: T) | Err(status: int, message: string) {
    /** The same error, for a result of another type. */
    function PropagateError<U>(): Result<U>
      requires Err?
    {
      Err(status, message)
    }
  }

  /** A route or query parameter that should name a document. `ObjectId` is a string that
      `mongoose.isValidObjectId` accepts (and that Mongoose can therefore cast); `Malformed`
      is any other string. */
  datatype RawId = ObjectId(id: Id) | Malformed(text: string)

  /** JavaScript truthiness of a request-body field: absent (`undefined`) and `""` are falsy. */
  predicate Truthy(field: Option<string>)
  {
    field.Some? && field.value != ""
  }

  /** What the media uploader returns for a successfully uploaded file. */
  datatype Asset = Asset(url: string, duration: Option<int>)

  datatype User = User(
    username: string,
    email: string,
    fullName: string,
    avatar: string,
    coverImage: string,
    password: string,              // whatever the user model's save hook stores (a hash)
    refreshToken: Option<string>)  // the single refresh token of the current session

  datatype Video = Video(
    title: string,
    description: string,
    videoFile: string,
    thumbnail: string,
    duration: Option<int>,
    owner: Id,
    isPublished: bool,
    views: nat)

  /** The one field a like document sets: `video`, `comment` or `tweet`. */
  datatype LikeTarget = OnVideo(video: Id) | OnComment(comment: Id) | OnTweet(tweet: Id)

  datatype Like = Like(likedBy: Id, target: LikeTarget)

  datatype Subscription = Subscription(subscriber: Id, channel: Id)

  datatype Playlist = Playlist(
    name: string,
    description: Option<string>,
    owner: Option<Id>,
    videos: seq<Id>)

  datatype Comment = Comment(content: Option<string>, video: Id, owner: Id)

  datatype Tweet = Tweet(content: string, owner: Id)

  /** A user document without `password` and `refreshToken` (`select("-password -refreshToken")`). */
  datatype UserView = UserView(
    id: Id,
    username: string,
    email: string,
    fullName: string,
    avatar: string,
    coverImage: string)

  function ViewOf(id: Id, u: User): UserView
  {
    UserView(id, u.username, u.email, u.fullName, u.avatar, u.coverImage)
  }

  /** The user fields the subscription lookups project: username, fullName, avatar. */
  datatype UserSummary = UserSummary(id: Id, username: string, fullName: string, avatar: string)

  function SummaryOf(id: Id, u: User): UserSummary
  {
    UserSummary(id, u.username, u.fullName, u.avatar)
  }
}

=== FILE: store.dfy ===
/** The document store, one map per collection, updated in place by the handlers. */
module Store {
  import opened Records
  import opened Text
  import opened Tables

  /** The unique indexes on `username` and `email`: no two accounts share either. */
  ghost predicate UniqueAccounts(users: map<Id, User>)
  {
    forall a, b :: a in users && b in users && a != b ==>
      users[a].username != users[b].username && users[a].email != users[b].email
  }

  /** Registration stores usernames lowercased, so no stored username has an upper-case letter. */
  ghost predicate LowercaseNames(users: map<Id, User>)
  {
    forall k :: k in users ==> NoUpper(users[k].username)
  }

  class Db {
    var users: map<Id, User>
    var videos: map<Id, Video>
    var likes: map<Id, Like>
    var subscriptions: map<Id, Subscription>
    var playlists: map<Id, Playlist>
    var comments: map<Id, Comment>
    var tweets: map<Id, Tweet>
    /** The next fresh document id; every stored id is below it. */
    var nextId: nat

    /** Every stored id is below `nextId`; the account indexes hold; and no user likes the same
        target twice or subscribes to the same channel twice, since a like or subscription is
        only created when the lookup before it found none. */
    ghost predicate Valid()
      reads this
    {
      && Below(users, nextId)
      && Below(videos, nextId)
      && Below(likes, nextId)
      && Below(subscriptions, nextId)
      && Below(playlists, nextId)
      && Below(comments, nextId)
      && Below(tweets, nextId)
      && UniqueAccounts(users)
      && LowercaseNames(users)
      && Distinct(likes)
      && Distinct(subscriptions)
    }

    constructor ()
      ensures Valid()
      ensures users == map[] && videos == map[] && likes == map[] && subscriptions == map[]
      ensures playlists == map[] && comments == map[] && tweets == map[]
    {
      users, videos, likes, subscriptions := map[], map[], map[], map[];
      playlists, comments, tweets := map[], map[], map[];
      nextId := 0;
    }

    /** A fresh ObjectId, different from every id stored so far. */
    method NewId() returns (id: Id)
      modifies this`nextId
      ensures id == old(nextId) && nextId == id + 1
    {
      id := nextId;
      nextId := nextId + 1;
    }
  }
}

=== FILE: subscription_controller.dfy ===
/** Channel subscriptions: the toggle, and the two getters that answer only the first
    aggregated entry. */
module SubscriptionController {
  import opened Records
  import opened Http
  import opened Tables
  import opened Toggles
  import opened Store

  /** `toggleSubscription`: an id that is not an ObjectId answers 400 and changes nothing;
      otherwise the caller's subscription to the channel is deleted when present and created
      when absent, and its new presence is reported. */
  method ToggleSubscription(db: Db, caller: Id, channelId: RawId) returns (resp: Response)
    requires db.Valid()
    modifies db`subscriptions, db`nextId
    ensures db.Valid()
    ensures channelId.Malformed? ==>
      && resp == Fail(400, "Invalid channelId format")
      && db.subscriptions == old(db.subscriptions) && db.nextId == old(db.nextId)
    ensures channelId.ObjectId? ==>
      var pair := Subscription(caller, channelId.id);
      && ToggleStep(old(db.subscriptions), old(db.nextId), db.subscriptions, db.nextId, pair)
      && db.subscriptions.Values == Toggled(old(db.subscriptions).Values, pair)
      && resp == Reply(200, SubscriptionState(pair in db.subscriptions.Values))
  {
    if channelId.Malformed? {
      return Fail(400, "Invalid channelId format");
    }
    var issubscribed := TogglePair(db, Subscription(caller, channelId.id));
    resp := Reply(200, SubscriptionState(issubscribed));
  }

  /** The find-then-delete-or-create of `toggleSubscription`, then the re-read that answers
      `issubscribed`. */
  method TogglePair(db: Db, pair: Subscription) returns (issubscribed: bool)
    requires db.Valid()
    modifies db`subscriptions, db`nextId
    ensures db.Valid()
    ensures ToggleStep(old(db.subscriptions), old(db.nextId), db.subscriptions, db.nextId, pair)
    ensures db.subscriptions.Values == Toggled(old(db.subscriptions).Values, pair)
    ensures issubscribed <==> pair in db.subscriptions.Values
  {
    var existing := FindFirst(db.subscriptions, db.nextId, Is(pair));
    if existing.None? {
      var id := db.NewId();
      db.subscriptions := db.subscriptions[id := pair];
    } else {
      db.subscriptions := db.subscriptions - {existing.value};
    }
    assert ToggleStep(old(db.subscriptions), old(db.nextId), db.subscriptions, db.nextId, pair);
    ToggleKeepsDistinct(old(db.subscriptions), old(db.nextId), db.subscriptions, db.nextId, pair);
    var after := FindFirst(db.subscriptions, db.nextId, Is(pair));
    issubscribed := after.Some?;
    assert issubscribed ==> db.subscriptions[after.value] == pair;
  }

  /** Subscribing to a channel and toggling again: the first answer reports a subscription, the
      second reports none, and the set of (subscriber, channel) pairs is restored. */
  method SubscribeThenUnsubscribe(db: Db, caller: Id, channel: Id) returns (r1: Response, r2: Response)
    requires db.Valid()
    requires Subscription(caller, channel) !in db.subscriptions.Values
    modifies db`subscriptions, db`nextId
    ensures db.Valid()
    ensures r1 == Reply(200, SubscriptionState(true)) && r2 == Reply(200, SubscriptionState(false))
    ensures db.subscriptions.Values == old(db.subscriptions).Values
  {
    var pair := Subscription(caller, channel);
    ghost var subs0, bound0 := db.subscriptions, db.nextId;
    r1 := ToggleSubscription(db, caller, ObjectId(channel));
    ToggleEffect(subs0, bound0, db.subscriptions, db.nextId, pair);
    ghost var subs1, bound1 := db.subscriptions, db.nextId;
    r2 := ToggleSubscription(db, caller, ObjectId(channel));
    ToggleEffect(subs1, bound1, db.subscriptions, db.nextId, pair);
    ToggledTwice(subs0.Values, pair);
  }

  /** A subscription to `channel` whose subscriber account exists: `$lookup` joins one user and
      `$unwind` drops the subscriptions whose join came back empty. */
  function SubscriberOf(users: map<Id, User>, channel: Id): Subscription -> bool
  {
    (s: Subscription) => s.channel == channel && s.subscriber in users
  }

  /** A subscription by `subscriber` whose channel account exists. */
  function ChannelOf(users: map<Id, User>, subscriber: Id): Subscription -> bool
  {
    (s: Subscription) => s.subscriber == subscriber && s.channel in users
  }

  /** `getUserChannelSubscribers`: 400 for an invalid id; 200 with a message when no
      subscription to the channel has an existing subscriber; otherwise only the first such
      subscription in natural order, with its subscriber's summary and a `totalSubscriber` of 1
      (the size of that one entry's join, not the channel's subscriber count). */
  method GetUserChannelSubscribers(db: Db, channelId: RawId) returns (resp: Response)
    requires db.Valid()
    ensures channelId.Malformed? ==> resp == Fail(400, "Invalid userId format")
    ensures channelId.ObjectId? ==>
      var c := channelId.id;
      && ((forall k :: k in db.subscriptions ==>
             !(db.subscriptions[k].channel == c && db.subscriptions[k].subscriber in db.users))
          <==> resp == Reply(200, Message("No subscriber found")))
      && (resp.body.SubscriberEntry? ==>
            var k := resp.body.subscriptionId;
            && resp.status == 200 && resp.body.totalSubscriber == 1
            && k in db.subscriptions && db.subscriptions[k].channel == c
            && db.subscriptions[k].subscriber in db.users
            && resp.body.subscriber == SummaryOf(db.subscriptions[k].subscriber, db.users[db.subscriptions[k].subscriber])
            && (forall j :: j in db.subscriptions && j < k ==>
                  !(db.subscriptions[j].channel == c && db.subscriptions[j].subscriber in db.users)))
      && (resp.body.SubscriberEntry? <==>
            exists k :: k in db.subscriptions && db.subscriptions[k].channel == c
                        && db.subscriptions[k].subscriber in db.users)
      && (resp.body.SubscriberEntry? || resp.body.Message?)
  {
    if channelId.Malformed? {
      return Fail(400, "Invalid userId format");
    }
    var first := FindFirst(db.subscriptions, db.nextId, SubscriberOf(db.users, channelId.id));
    if first.None? {
      return Reply(200, Message("No subscriber found"));
    }
    var s := db.subscriptions[first.value];
    resp := Reply(200, SubscriberEntry(first.value, SummaryOf(s.subscriber, db.users[s.subscriber]), 1));
  }

  /** `getSubscribedChannels`: the same with the roles swapped, keyed on the subscriber and
      joining the channel's account. */
  method GetSubscribedChannels(db: Db, subscriberId: RawId) returns (resp: Response)
    requires db.Valid()
    ensures subscriberId.Malformed? ==> resp == Fail(400, "Invalid userId format")
    ensures subscriberId.ObjectId? ==>
      var u := subscriberId.id;
      && ((forall k :: k in db.subscriptions ==>
             !(db.subscriptions[k].subscriber == u && db.subscriptions[k].channel in db.users))
          <==> resp == Reply(200, Message("No channel subscribed")))
      && (resp.body.ChannelEntry? ==>
            var k := resp.body.subscriptionId;
            && resp.status == 200 && resp.body.totalChannelSubscribed == 1
            && k in db.subscriptions && db.subscriptions[k].subscriber == u
            && db.subscriptions[k].channel in db.users
            && resp.body.channel == SummaryOf(db.subscriptions[k].channel, db.users[db.subscriptions[k].channel])
            && (forall j :: j in db.subscriptions && j < k ==>
                  !(db.subscriptions[j].subscriber == u && db.subscriptions[j].channel in db.users)))
      && (resp.body.ChannelEntry? <==>
            exists k :: k in db.subscriptions && db.subscriptions[k].subscriber == u
                        && db.subscriptions[k].channel in db.users)
      && (resp.body.ChannelEntry? || resp.body.Message?)
  {
    if subscriberId.Malformed? {
      return Fail(400, "Invalid userId format");
    }
    var first := FindFirst(db.subscriptions, db.nextId, ChannelOf(db.users, subscriberId.id));
    if first.None? {
      return Reply(200, Message("No channel subscribed"));
    }
    var s := db.subscriptions[first.value];
    resp := Reply(200, ChannelEntry(first.value, SummaryOf(s.channel, db.users[s.channel]), 1));
  }
}

=== FILE: tables.dfy ===
/** The store queries the handlers issue (`find`, `findOne`, `countDocuments`), over one
    collection held as a map from id to document. Every id of a collection is below the
    store's next fresh id, so scanning the ids below that bound in increasing order visits the
    documents in their natural (insertion) order. */
module Tables {
  import opened Records

  ghost predicate Below<T>(m: map<Id, T>, bound: nat)
  {
    forall k :: k in m ==> k < bound
  }

  /** The ids of the documents below `bound` that satisfy `p`, in increasing order. */
  function SelectKeys<T>(m: map<Id, T>, bound: nat, p: T -> bool): (ks: seq<Id>)
    ensures forall i :: 0 <= i < |ks| ==> ks[i] in m && ks[i] < bound && p(m[ks[i]])
    ensures forall i, j :: 0 <= i < j < |ks| ==> ks[i] < ks[j]
    ensures forall k :: k in m && k < bound && p(m[k]) ==> k in ks
  {
    if bound == 0 then []
    else
      var ks := SelectKeys(m, bound - 1, p);
      if bound - 1 in m && p(m[bound - 1]) then ks + [bound - 1] else ks
  }

  /** Two collections that hold the same documents below `bound` select the same ids. */
  lemma {:induction false} SelectKeysAgree<T>(m: map<Id, T>, m': map<Id, T>, bound: nat, p: T -> bool)
    requires forall k :: k < bound ==> (k in m <==> k in m') && (k in m ==> m[k] == m'[k])
    ensures SelectKeys(m, bound, p) == SelectKeys(m', bound, p)
  {
    if bound > 0 {
      SelectKeysAgree(m, m', bound - 1, p);
    }
  }

  /** The documents named by `ks`, each paired with its id. */
  function Entries<T>(m: map<Id, T>, ks: seq<Id>): (es: seq<(Id, T)>)
    requires forall i :: 0 <= i < |ks| ==> ks[i] in m
    ensures |es| == |ks|
    ensures forall i :: 0 <= i < |ks| ==> es[i] == (ks[i], m[ks[i]])
  {
    if ks == [] then [] else [(ks[0], m[ks[0]])] + Entries(m, ks[1..])
  }

  /** `es` lists exactly the documents of `m` that satisfy `p`, each once, in natural order. */
  ghost predicate ListsExactly<T>(es: seq<(Id, T)>, m: map<Id, T>, p: T -> bool)
  {
    && (forall i :: 0 <= i < |es| ==> es[i].0 in m && m[es[i].0] == es[i].1 && p(es[i].1))
    && (forall i, j :: 0 <= i < j < |es| ==> es[i].0 < es[j].0)
    && (forall k :: k in m && p(m[k]) ==> exists i :: 0 <= i < |es| && es[i].0 == k)
  }

  /** Writing an entry and then writing back its old value restores the map. */
  lemma RestoredEntry<K, V>(m: map<K, V>, k: K, a: V)
    requires k in m
    ensures m[k := a][k := m[k]] == m
  {
  }

  /** No two stored records are equal. */
  ghost predicate Distinct<T>(m: map<Id, T>)
  {
    forall a, b :: a in m && b in m && a != b ==> m[a] != m[b]
  }

  /** `find(filter)`: every matching document, in natural order. */
  function Find<T>(m: map<Id, T>, bound: nat, p: T -> bool): (es: seq<(Id, T)>)
    requires Below(m, bound)
    ensures ListsExactly(es, m, p)
  {
    SelectedEntries(m, bound, p);
    Entries(m, SelectKeys(m, bound, p))
  }

  /** The documents named by the selected ids are an exact listing. */
  lemma SelectedEntries<T>(m: map<Id, T>, bound: nat, p: T -> bool)
    requires Below(m, bound)
    ensures ListsExactly(Entries(m, SelectKeys(m, bound, p)), m, p)
  {
    var ks := SelectKeys(m, bound, p);
    var es := Entries(m, ks);
    forall i | 0 <= i < |es| ensures es[i].0 in m && m[es[i].0] == es[i].1 && p(es[i].1) {
      assert es[i] == (ks[i], m[ks[i]]);
    }
    forall i, j | 0 <= i < j < |es| ensures es[i].0 < es[j].0 {
      assert es[i].0 == ks[i] && es[j].0 == ks[j];
    }
    forall k | k in m && p(m[k]) ensures exists i :: 0 <= i < |es| && es[i].0 == k {
      var i :| 0 <= i < |ks| && ks[i] == k;
      assert es[i].0 == k;
    }
  }

  /** The first entry of an exact listing is the matching document with the least id. */
  lemma HeadIsLeast<T>(a: seq<(Id, T)>, m: map<Id, T>, p: T -> bool, k: Id)
    requires ListsExactly(a, m, p) && a != []
    requires k in m && p(m[k])
    ensures a[0].0 <= k
  {
    var i :| 0 <= i < |a| && a[i].0 == k;
    assert i == 0 || a[0].0 < a[i].0;
  }

  /** Dropping the first entry lists the rest of the collection. */
  lemma TailListsRest<T>(a: seq<(Id, T)>, m: map<Id, T>, p: T -> bool)
    requires ListsExactly(a, m, p) && a != []
    ensures ListsExactly(a[1..], m - {a[0].0}, p)
  {
    var m' := m - {a[0].0};
    var t := a[1..];
    forall i | 0 <= i < |t| ensures t[i].0 in m' && m'[t[i].0] == t[i].1 && p(t[i].1) {
      assert a[0].0 < a[i + 1].0;
    }
    forall k | k in m' && p(m'[k]) ensures exists i :: 0 <= i < |t| && t[i].0 == k {
      var i :| 0 <= i < |a| && a[i].0 == k;
      assert t[i - 1].0 == k;
    }
  }

  /** An exact listing is empty exactly when nothing matches. */
  lemma EmptyListing<T>(a: seq<(Id, T)>, m: map<Id, T>, p: T -> bool)
    requires ListsExactly(a, m, p)
    ensures a == [] <==> forall k :: k in m ==> !p(m[k])
  {
    if a != [] {
      assert a[0].0 in m && p(m[a[0].0]);
    }
  }

  /** Two exact listings of the same documents start with the same entry. */
  lemma HeadsAgree<T>(a: seq<(Id, T)>, b: seq<(Id, T)>, m: map<Id, T>, p: T -> bool)
    requires ListsExactly(a, m, p) && ListsExactly(b, m, p) && a != [] && b != []
    ensures a[0] == b[0]
  {
    HeadIsLeast(a, m, p, b[0].0);
    HeadIsLeast(b, m, p, a[0].0);
  }

  lemma SameHeadSameTail<T>(a: seq<T>, b: seq<T>)
    requires a != [] && b != [] && a[0] == b[0] && a[1..] == b[1..]
    ensures a == b
  {
    assert a == [a[0]] + a[1..] && b == [b[0]] + b[1..];
  }

  /** A listing of exactly the matching documents is unique: it is what `Find` returns. */
  lemma {:induction false} ListsExactlyIsUnique<T>(a: seq<(Id, T)>, b: seq<(Id, T)>, m: map<Id, T>, p: T -> bool)
    requires ListsExactly(a, m, p) && ListsExactly(b, m, p)
    ensures a == b
    decreases |a|
  {
    if a != [] && b != [] {
      HeadsAgree(a, b, m, p);
      TailListsRest(a, m, p);
      TailListsRest(b, m, p);
      ListsExactlyIsUnique(a[1..], b[1..], m - {a[0].0}, p);
      SameHeadSameTail(a, b);
    } else {
      EmptyListing(a, m, p);
      EmptyListing(b, m, p);
    }
  }

  /** `findOne(filter)`: the first matching document in natural order, if any. */
  function FindFirst<T>(m: map<Id, T>, bound: nat, p: T -> bool): (r: Option<Id>)
    requires Below(m, bound)
    ensures r.None? <==> forall k :: k in m ==> !p(m[k])
    ensures r.Some? ==> r.value in m && p(m[r.value])
    ensures r.Some? ==> forall k :: k in m && k < r.value ==> !p(m[k])
  {
    var ks := SelectKeys(m, bound, p);
    if ks == [] then None
    else
      assert forall k :: k in m && k < ks[0] ==> !p(m[k]) by {
        forall k | k in m && k < ks[0] ensures !p(m[k]) {
        }
      }
      Some(ks[0])
  }

  /** The ids of the documents satisfying `p`, as a set. */
  function KeysWhere<T>(m: map<Id, T>, p: T -> bool): set<Id>
  {
    set k | k in m && p(m[k])
  }

  /** The ids below `bound` of the documents satisfying `p`. */
  ghost function KeysBelow<T>(m: map<Id, T>, bound: nat, p: T -> bool): set<Id>
  {
    set k | k in m && k < bound && p(m[k])
  }

  /** Raising the bound by one adds the id just below it when that document matches. */
  lemma KeysBelowStep<T>(m: map<Id, T>, bound: nat, p: T -> bool)
    requires bound > 0
    ensures bound - 1 !in KeysBelow(m, bound - 1, p)
    ensures KeysBelow(m, bound, p) ==
      KeysBelow(m, bound - 1, p) + (if bound - 1 in m && p(m[bound - 1]) then {bound - 1} else {})
  {
  }

  lemma {:induction false} SelectKeysCount<T>(m: map<Id, T>, bound: nat, p: T -> bool)
    ensures |SelectKeys(m, bound, p)| == |KeysBelow(m, bound, p)|
  {
    if bound > 0 {
      SelectKeysCount(m, bound - 1, p);
      CountStep(m, bound, p);
    }
  }

  /** Raising the bound by one grows the selected ids and the matching ids alike, so the
      counts stay equal. */
  lemma CountStep<T>(m: map<Id, T>, bound: nat, p: T -> bool)
    requires bound > 0
    requires |SelectKeys(m, bound - 1, p)| == |KeysBelow(m, bound - 1, p)|
    ensures |SelectKeys(m, bound, p)| == |KeysBelow(m, bound, p)|
  {
    KeysBelowStep(m, bound, p);
    var before := KeysBelow(m, bound - 1, p);
    if bound - 1 in m && p(m[bound - 1]) {
      assert |before + {bound - 1}| == |before| + 1;
    }
  }

  /** `countDocuments(filter)`: how many documents satisfy `p`. */
  function Count<T>(m: map<Id, T>, bound: nat, p: T -> bool): (n: nat)
    requires Below(m, bound)
    ensures n == |KeysWhere(m, p)|
  {
    SelectKeysCount(m, bound, p);
    assert KeysBelow(m, bound, p) == KeysWhere(m, p);
    |SelectKeys(m, bound, p)|
  }

  /** An exact listing has one entry per matching document. */
  lemma ListingSize<T>(es: seq<(Id, T)>, m: map<Id, T>, p: T -> bool)
    requires ListsExactly(es, m, p)
    ensures |es| == |KeysWhere(m, p)|
  {
    var ks := set i | 0 <= i < |es| :: es[i].0;
    assert ks == KeysWhere(m, p) by {
      forall k | k in KeysWhere(m, p) ensures k in ks {
        var i :| 0 <= i < |es| && es[i].0 == k;
      }
    }
    IndexImageSize(es);
  }

  /** The ids of a listing in increasing order are as many as its entries. */
  lemma {:induction false} IndexImageSize<T>(es: seq<(Id, T)>)
    requires forall i, j :: 0 <= i < j < |es| ==> es[i].0 < es[j].0
    ensures |set i | 0 <= i < |es| :: es[i].0| == |es|
  {
    if es != [] {
      var n := |es| - 1;
      var init := es[..n];
      IndexImageSize(init);
      var a := set i | 0 <= i < |init| :: init[i].0;
      var b := set i | 0 <= i < |es| :: es[i].0;
      assert b == a + {es[n].0};
      assert es[n].0 !in a;
    }
  }

  /** A reordering of a `find` result still holds only stored, matching documents. */
  lemma ReorderedEntries<T>(es: seq<(Id, T)>, rs: seq<(Id, T)>, m: map<Id, T>, p: T -> bool)
    requires ListsExactly(es, m, p) && multiset(rs) == multiset(es)
    ensures forall i :: 0 <= i < |rs| ==> rs[i].0 in m && m[rs[i].0] == rs[i].1 && p(rs[i].1)
  {
    forall i | 0 <= i < |rs| ensures rs[i].0 in m && m[rs[i].0] == rs[i].1 && p(rs[i].1) {
      assert rs[i] in multiset(rs);
      var j :| 0 <= j < |es| && es[j] == rs[i];
    }
  }
}

=== FILE: text.dfy ===
/** The JavaScript string operations the handlers rely on: `trim`, `toLowerCase` and `parseInt`. */
module Text {
  import opened Records

  /** ECMAScript WhiteSpace and LineTerminator code points, the set `trim` and `parseInt` skip. */
  predicate IsSpace(c: char)
  {
    c == '\t' || c == '\n' || c == '\U{B}' || c == '\U{C}' || c == '\r' || c == ' '
    || c == '\U{A0}' || c == '\U{1680}' || ('\U{2000}' <= c <= '\U{200A}')
    || c == '\U{2028}' || c == '\U{2029}' || c == '\U{202F}' || c == '\U{205F}'
    || c == '\U{3000}' || c == '\U{FEFF}'
  }

  ghost predicate AllSpace(s: string)
  {
    forall i :: 0 <= i < |s| ==> IsSpace(s[i])
  }

  /** The number of white-space characters `s` starts with. */
  function LeadingSpace(s: string): (n: nat)
    ensures n <= |s|
    ensures forall i :: 0 <= i < n ==> IsSpace(s[i])
    ensures n < |s| ==> !IsSpace(s[n])
  {
    if s != [] && IsSpace(s[0]) then 1 + LeadingSpace(s[1..]) else 0
  }

  /** The number of white-space characters `s` ends with. */
  function TrailingSpace(s: string): (n: nat)
    ensures n <= |s|
    ensures forall i :: |s| - n <= i < |s| ==> IsSpace(s[i])
    ensures n < |s| ==> !IsSpace(s[|s| - n - 1])
  {
    if s != [] && IsSpace(s[|s| - 1]) then 1 + TrailingSpace(s[..|s| - 1]) else 0
  }

  /** Drops leading white space: the result is the suffix of `s` after a white-space prefix,
      and it does not itself start with white space. */
  function TrimStart(s: string): (r: string)
    ensures |r| <= |s| && r == s[|s| - |r|..]
    ensures AllSpace(s[..|s| - |r|])
    ensures r != [] ==> !IsSpace(r[0])
  {
    s[LeadingSpace(s)..]
  }

  /** Drops trailing white space: the result is the prefix of `s` before a white-space suffix,
      and it does not itself end with white space. */
  function TrimEnd(s: string): (r: string)
    ensures |r| <= |s| && r == s[..|r|]
    ensures AllSpace(s[|r|..])
    ensures r != [] ==> !IsSpace(r[|r| - 1])
  {
    s[..|s| - TrailingSpace(s)]
  }

  /** `String.prototype.trim`: the middle of `s` between a white-space prefix and a white-space
      suffix, neither starting nor ending with white space. */
  function Trim(s: string): (r: string)
    ensures exists i, j :: 0 <= i <= j <= |s| && r == s[i..j] && AllSpace(s[..i]) && AllSpace(s[j..])
    ensures r != [] ==> !IsSpace(r[0]) && !IsSpace(r[|r| - 1])
  {
    TrimIsSlice(s);
    TrimDropsSpaceSuffix(s);
    TrimEnds(s);
    TrimEnd(TrimStart(s))
  }

  lemma {:induction false} TrimIsSlice(s: string)
    ensures var t := TrimStart(s); var i := |s| - |t|;
      i + |TrimEnd(t)| <= |s| && TrimEnd(t) == s[i..i + |TrimEnd(t)|]
  {
    var t := TrimStart(s);
    SuffixThenPrefix(s, t, TrimEnd(t));
  }

  lemma {:induction false} TrimDropsSpaceSuffix(s: string)
    ensures var t := TrimStart(s); |s| - |t| + |TrimEnd(t)| <= |s| && AllSpace(s[|s| - |t| + |TrimEnd(t)|..])
  {
    var t := TrimStart(s);
    SuffixThenPrefix(s, t, TrimEnd(t));
  }

  /** A prefix `r` of a suffix `t` of `s` is the slice of `s` between them, and what follows
      `r` in `s` is what follows it in `t`. */
  lemma SuffixThenPrefix(s: string, t: string, r: string)
    requires |t| <= |s| && t == s[|s| - |t|..]
    requires |r| <= |t| && r == t[..|r|]
    requires AllSpace(t[|r|..])
    ensures var i := |s| - |t|; r == s[i..i + |r|] && AllSpace(s[i + |r|..])
  {
    var i := |s| - |t|;
    assert s[i + |r|..] == t[|r|..];
  }

  lemma {:induction false} TrimEnds(s: string)
    ensures var r := TrimEnd(TrimStart(s)); r != [] ==> !IsSpace(r[0]) && !IsSpace(r[|r| - 1])
  {
    var t := TrimStart(s);
    var r := TrimEnd(t);
    if r != [] {
      assert r[0] == t[0];
    }
  }

  /** A string trims to "" exactly when every character of it is white space. */
  lemma {:induction false} TrimEmptyIffAllSpace(s: string)
    ensures Trim(s) == [] <==> AllSpace(s)
  {
    var t := TrimStart(s);
    if Trim(s) == [] {
      assert t[0..] == t;
      forall i | 0 <= i < |s| ensures IsSpace(s[i]) {
        if i < |s| - |t| {
          assert s[i] == s[..|s| - |t|][i];
        }
      }
    }
  }

  predicate IsUpper(c: char)
  {
    'A' <= c <= 'Z'
  }

  function LowerChar(c: char): char
  {
    if IsUpper(c) then (c as int + 32) as char else c
  }

  ghost predicate NoUpper(s: string)
  {
    forall i :: 0 <= i < |s| ==> !IsUpper(s[i])
  }

  /** `String.prototype.toLowerCase`, on the ASCII letters. Each character is lowered in place,
      and no upper-case letter is left. */
  function ToLower(s: string): (r: string)
    ensures |r| == |s|
    ensures forall i :: 0 <= i < |s| ==> r[i] == LowerChar(s[i])
    ensures NoUpper(r)
  {
    if s == [] then [] else [LowerChar(s[0])] + ToLower(s[1..])
  }

  /** Lowering changes a string exactly when it has an upper-case letter. */
  lemma ToLowerFixesIff(s: string)
    ensures ToLower(s) == s <==> NoUpper(s)
  {
    if NoUpper(s) {
      assert forall i :: 0 <= i < |s| ==> ToLower(s)[i] == s[i];
    }
  }

  /** The value of `c` as a digit (0-9, then a-z / A-Z for 10-35), or -1. */
  function DigitValue(c: char): int
  {
    if '0' <= c <= '9' then c as int - '0' as int
    else if 'a' <= c <= 'z' then c as int - 'a' as int + 10
    else if 'A' <= c <= 'Z' then c as int - 'A' as int + 10
    else -1
  }

  predicate IsDigit(c: char, radix: nat)
  {
    0 <= DigitValue(c) < radix
  }

  /** The length of the longest prefix of `s` made of digits in `radix`. */
  function DigitRun(s: string, radix: nat): (n: nat)
    ensures n <= |s|
    ensures forall i :: 0 <= i < n ==> IsDigit(s[i], radix)
    ensures n < |s| ==> !IsDigit(s[n], radix)
  {
    if s != [] && IsDigit(s[0], radix) then 1 + DigitRun(s[1..], radix) else 0
  }

  /** Appends the digit `low` to the number `high` in `radix`. */
  function Shift(high: nat, radix: nat, low: nat): nat
  {
    high * radix + low
  }

  /** The number a string of digits denotes in `radix`, most significant digit first. */
  function ValueOf(digits: string, radix: nat): nat
    requires forall i :: 0 <= i < |digits| ==> IsDigit(digits[i], radix)
  {
    if digits == [] then 0
    else
      assert IsDigit(digits[|digits| - 1], radix);
      Shift(ValueOf(digits[..|digits| - 1], radix), radix, DigitValue(digits[|digits| - 1]))
  }

  /** `parseInt(s)` with no radix: skip leading white space, read an optional sign, then a
      magnitude. NaN is `None`. */
  function ParseInt(s: string): (r: Option<int>)
    ensures TrimStart(s) == [] ==> r.None?
    ensures r.Some? && r.value < 0 ==> TrimStart(s)[0] == '-'
    ensures TrimStart(s) != [] && '1' <= TrimStart(s)[0] <= '9' ==> r.Some? && r.value >= 0
  {
    var t := TrimStart(s);
    if t != [] && t[0] == '-' then
      match ParseMagnitude(t[1..])
      case None => None
      case Some(v) => Some(-v)
    else if t != [] && t[0] == '+' then ParseMagnitude(t[1..])
    else ParseMagnitude(t)
  }

  /** A `0x`/`0X` prefix selects radix 16, anything else radix 10. */
  function ParseMagnitude(u: string): (r: Option<int>)
    ensures r.Some? ==> r.value >= 0
    ensures u == [] ==> r.None?
    ensures u != [] && '1' <= u[0] <= '9' ==> r.Some?
    ensures |u| >= 2 && u[0] == '0' && (u[1] == 'x' || u[1] == 'X') ==>
      (r.Some? <==> |u| > 2 && IsDigit(u[2], 16))
  {
    if |u| >= 2 && u[0] == '0' && (u[1] == 'x' || u[1] == 'X') then ReadDigits(u[2..], 16)
    else ReadDigits(u, 10)
  }

  /** The longest run of digits at the start of `w`; no digit at all is NaN. What follows the
      digits is ignored. */
  function ReadDigits(w: string, radix: nat): (r: Option<int>)
    ensures r.None? <==> w == [] || !IsDigit(w[0], radix)
    ensures r.Some? ==> r.value >= 0
  {
    var n := DigitRun(w, radix);
    if n == 0 then None else Some(ValueOf(w[..n], radix))
  }

  function DigitChar(d: nat): (c: char)
    requires d < 10
    ensures IsDigit(c, 10) && DigitValue(c) == d
  {
    ('0' as int + d) as char
  }

  /** `String(n)` for a natural number: its decimal numeral. */
  function Decimal(n: nat): (s: string)
    ensures s != []
    ensures forall i :: 0 <= i < |s| ==> IsDigit(s[i], 10)
  {
    if n < 10 then [DigitChar(n)] else Decimal(n / 10) + [DigitChar(n % 10)]
  }

  lemma {:induction false} DecimalValue(n: nat)
    ensures ValueOf(Decimal(n), 10) == n
  {
    if n >= 10 {
      var s := Decimal(n);
      assert s[..|s| - 1] == Decimal(n / 10);
      DecimalValue(n / 10);
    }
  }

  /** `parseInt` reads back a decimal numeral, and stops at the first character that cannot
      continue it (unless that turns a lone "0" into a "0x" hex prefix). */
  lemma {:induction false} ParseIntDecimal(n: nat, rest: string)
    requires rest == [] || !IsDigit(rest[0], 10)
    requires n == 0 ==> rest == [] || (rest[0] != 'x' && rest[0] != 'X')
    ensures ParseInt(Decimal(n) + rest) == Some(n)
  {
    var d := Decimal(n);
    var s := d + rest;
    assert s[0] == d[0];
    assert !(|s| >= 2 && s[0] == '0' && (s[1] == 'x' || s[1] == 'X')) by {
      if |d| >= 2 {
        assert s[1] == d[1];
      } else if |s| >= 2 {
        assert s[1] == rest[0];
      }
    }
    ParseIntOfDigits(s);
    DigitRunOfPrefix(d, rest);
    assert s[..|d|] == d;
    DecimalValue(n);
  }

  /** A string that starts with a decimal digit, and not with a "0x" prefix, is read in radix 10
      from its first character. */
  lemma ParseIntOfDigits(s: string)
    requires s != [] && IsDigit(s[0], 10)
    requires !(|s| >= 2 && s[0] == '0' && (s[1] == 'x' || s[1] == 'X'))
    ensures ParseInt(s) == ReadDigits(s, 10)
  {
    assert '0' <= s[0] <= '9';
    assert !IsSpace(s[0]) && s[0] != '-' && s[0] != '+';
    assert TrimStart(s) == s;
    assert ParseInt(s) == ParseMagnitude(s);
  }

  /** Text that does not start with white space is its own `TrimStart`. */
  lemma TrimStartOfNonSpace(s: string)
    requires s != [] && !IsSpace(s[0])
    ensures TrimStart(s) == s
  {
  }

  /** A minus sign before a number negates what follows it; NaN stays NaN. */
  lemma {:induction false} ParseIntNegated(u: string)
    requires u != [] && IsDigit(u[0], 10)
    ensures ParseInt("-" + u) == if ParseInt(u).Some? then Some(-ParseInt(u).value) else None
  {
    var s := "-" + u;
    assert s[0] == '-' && s[1..] == u;
    TrimStartOfNonSpace(s);
    assert '0' <= u[0] <= '9';
    TrimStartOfNonSpace(u);
    assert ParseInt(u) == ParseMagnitude(u);
  }

  /** Text whose first character is neither white space, a sign nor a digit is NaN. */
  lemma {:induction false} ParseIntWithoutDigits(s: string)
    requires s != [] && !IsSpace(s[0]) && s[0] != '-' && s[0] != '+' && !IsDigit(s[0], 10)
    ensures ParseInt(s).None?
  {
    TrimStartOfNonSpace(s);
    assert s[0] != '0';
    assert DigitRun(s, 10) == 0;
  }

  /** A run of decimal digits followed by a non-digit is read to its end. */
  lemma DigitRunOfPrefix(d: string, rest: string)
    requires forall i :: 0 <= i < |d| ==> IsDigit(d[i], 10)
    requires rest == [] || !IsDigit(rest[0], 10)
    ensures DigitRun(d + rest, 10) == |d|
  {
    var s := d + rest;
    var k := DigitRun(s, 10);
    assert forall i :: 0 <= i < |d| ==> s[i] == d[i];
    assert |d| < |s| ==> s[|d|] == rest[0];
  }
}

=== FILE: toggles.dfy ===
/** The find-then-create-or-delete step shared by the like and subscription toggles: look up the
    first record equal to a given pair; delete it when found, otherwise store the pair under a
    fresh id. Seen as a set of pairs, the step adds the pair when it is missing and removes it
    when it is there. */
module Toggles {
  import opened Records
  import opened Tables

  /** The pair set with `x` flipped: added when absent, removed when present. */
  function Toggled<T(!new)>(s: set<T>, x: T): (r: set<T>)
    ensures x in r <==> x !in s
    ensures forall y :: y != x ==> (y in r <==> y in s)
  {
    if x in s then s - {x} else s + {x}
  }

  /** Flipping the same pair twice gives back the original set. */
  lemma ToggledTwice<T(!new)>(s: set<T>, x: T)
    ensures Toggled(Toggled(s, x), x) == s
  {
  }

  /** The filter matching records equal to `x`. */
  function Is<T(==)>(x: T): T -> bool
  {
    (y: T) => y == x
  }

  /** `before` (with fresh-id bound `bound`) becomes `after` (with bound `afterBound`): the first
      record equal to `x` is deleted, or, when there is none, `x` is stored under `bound`. */
  ghost predicate ToggleStep<T>(before: map<Id, T>, bound: nat, after: map<Id, T>, afterBound: nat, x: T)
    requires Below(before, bound)
    ensures ToggleStep(before, bound, after, afterBound, x) ==>
      && (afterBound == bound <==> x in before.Values)
      && (x in before.Values ==> after.Keys < before.Keys)
      && (x !in before.Values ==> before.Keys < after.Keys)
  {
    match FindFirst(before, bound, Is(x))
    case Some(k) =>
      assert before[k] == x;
      after == before - {k} && afterBound == bound
    case None =>
      assert bound !in before && x !in before.Values;
      after == before[bound := x] && afterBound == bound + 1
  }

  /** Deleting a record of `x`: every other record stays, and the pair set loses `x` when the
      collection held it only once. */
  lemma DeleteEffect<T(!new)>(before: map<Id, T>, after: map<Id, T>, k: Id, x: T)
    requires k in before && before[k] == x && after == before - {k}
    ensures forall j :: j in before && before[j] != x ==> j in after && after[j] == before[j]
    ensures forall j :: j in after ==> j in before && before[j] == after[j]
    ensures |after| == |before| - 1
    ensures Distinct(before) ==> Distinct(after) && after.Values == Toggled(before.Values, x)
  {
    if Distinct(before) {
      forall y ensures y in after.Values <==> y in Toggled(before.Values, x) {
        if y in after.Values {
          var j :| j in after && after[j] == y;
          assert j in before && j != k;
        }
        if y in before.Values && y != x {
          var j :| j in before && before[j] == y;
          assert j in after;
        }
      }
    }
  }

  /** Storing `x` under a fresh id when no record holds it: every record stays, and the pair
      set gains `x`. */
  lemma InsertEffect<T(!new)>(before: map<Id, T>, bound: nat, after: map<Id, T>, x: T)
    requires Below(before, bound) && x !in before.Values && after == before[bound := x]
    ensures Below(after, bound + 1)
    ensures forall j :: j in before ==> j in after && after[j] == before[j]
    ensures |after| == |before| + 1 && x in after.Values
    ensures Distinct(before) ==> Distinct(after) && after.Values == Toggled(before.Values, x)
  {
    assert bound !in before;
    assert after[bound] == x;
    forall y ensures y in after.Values <==> y in Toggled(before.Values, x) {
      if y in after.Values && y != x {
        var j :| j in after && after[j] == y;
        assert j in before;
      }
      if y in before.Values {
        var j :| j in before && before[j] == y;
        assert j in after && after[j] == y;
      }
    }
  }

  /** What a toggle step does to the collection: records of other pairs keep their ids and
      contents, the fresh-id bound still covers every id, exactly one record of `x` is removed
      or added, and on a collection without duplicate pairs the pair set is exactly flipped and
      stays free of duplicates. */
  lemma ToggleEffect<T(!new)>(before: map<Id, T>, bound: nat, after: map<Id, T>, afterBound: nat, x: T)
    requires Below(before, bound) && ToggleStep(before, bound, after, afterBound, x)
    ensures Below(after, afterBound) && bound <= afterBound
    ensures forall k :: k in before && before[k] != x ==> k in after && after[k] == before[k]
    ensures forall k :: k in after && after[k] != x ==> k in before && before[k] == after[k]
    ensures x in before.Values ==> |after| == |before| - 1
    ensures x !in before.Values ==> |after| == |before| + 1 && x in after.Values
    ensures Distinct(before) ==> Distinct(after) && after.Values == Toggled(before.Values, x)
  {
    match FindFirst(before, bound, Is(x))
    case Some(k) =>
      DeleteEffect(before, after, k, x);
    case None =>
      assert forall j :: j in before ==> !Is(x)(before[j]);
      InsertEffect(before, bound, after, x);
  }
  /** What a handler needs of a toggle on a duplicate-free collection: ids stay below the
      bound, the collection stays duplicate-free, and its pair set has `x` toggled. */
  lemma ToggleKeepsDistinct<T(!new)>(before: map<Id, T>, bound: nat, after: map<Id, T>, afterBound: nat, x: T)
    requires Below(before, bound) && Distinct(before) && ToggleStep(before, bound, after, afterBound, x)
    ensures Below(after, afterBound) && bound <= afterBound
    ensures Distinct(after) && after.Values == Toggled(before.Values, x)
  {
    ToggleEffect(before, bound, after, afterBound, x);
  }

}

=== FILE: tweet_controller.dfy ===
/** Tweets: create, list by owner, update and delete. */
module TweetController {
  import opened Records
  import opened Http
  import opened Tables
  import opened Store

  /** `createTweet`: falsy content answers 400 and creates nothing; otherwise a tweet with that
      content, owned by the caller, is stored under a fresh id. */
  method CreateTweet(db: Db, caller: Id, content: Option<string>) returns (resp: Response)
    requires db.Valid()
    modifies db`tweets, db`nextId
    ensures db.Valid()
    ensures !Truthy(content) ==>
      resp == Fail(400, "Content field is required!") && db.tweets == old(db.tweets) && db.nextId == old(db.nextId)
    ensures Truthy(content) ==>
      var t := Tweet(content.value, caller);
      && db.tweets == old(db.tweets)[old(db.nextId) := t]
      && db.nextId == old(db.nextId) + 1
      && resp == Reply(200, TweetDoc(old(db.nextId), t))
  {
    if !Truthy(content) {
      return Fail(400, "Content field is required!");
    }
    var t := Tweet(content.value, caller);
    var id := db.NewId();
    db.tweets := db.tweets[id := t];
    resp := Reply(200, TweetDoc(id, t));
  }

  function OwnedBy(owner: Id): Tweet -> bool
  {
    (t: Tweet) => t.owner == owner
  }

  /** `getUserTweets`: 400 for an invalid id; otherwise 200 with every tweet of that owner in
      natural order, also when there are none (an empty array is truthy). */
  method GetUserTweets(db: Db, userId: RawId) returns (resp: Response)
    requires db.Valid()
    ensures userId.Malformed? ==> resp == Fail(400, "Invalid userId format")
    ensures userId.ObjectId? ==>
      && resp.status == 200 && resp.body.TweetList?
      && ListsExactly(resp.body.tweets, db.tweets, OwnedBy(userId.id))
      && |resp.body.tweets| == |KeysWhere(db.tweets, OwnedBy(userId.id))|
  {
    if userId.Malformed? {
      return Fail(400, "Invalid userId format");
    }
    var tweets := Find(db.tweets, db.nextId, OwnedBy(userId.id));
    ListingSize(tweets, db.tweets, OwnedBy(userId.id));
    resp := Reply(200, TweetList(tweets));
  }

  /** `updateTweet`, checking in order: invalid id (400), falsy content (400), missing tweet
      (404); otherwise only the content changes. */
  method UpdateTweet(db: Db, tweetId: RawId, content: Option<string>) returns (resp: Response)
    requires db.Valid()
    modifies db`tweets
    ensures db.Valid()
    ensures resp.status != 200 ==> db.tweets == old(db.tweets)
    ensures tweetId.Malformed? ==> resp == Fail(400, "Invalid userId format")
    ensures tweetId.ObjectId? && !Truthy(content) ==> resp == Fail(400, "Content field is required")
    ensures tweetId.ObjectId? && Truthy(content) && tweetId.id !in old(db.tweets) ==>
      resp == Fail(404, "Tweet not found")
    ensures tweetId.ObjectId? && Truthy(content) && tweetId.id in old(db.tweets) ==>
      var updated := old(db.tweets)[tweetId.id].(content := content.value);
      && db.tweets == old(db.tweets)[tweetId.id := updated]
      && resp == Reply(200, TweetDoc(tweetId.id, updated))
  {
    if tweetId.Malformed? {
      return Fail(400, "Invalid userId format");
    }
    if !Truthy(content) {
      return Fail(400, "Content field is required");
    }
    if tweetId.id !in db.tweets {
      return Fail(404, "Tweet not found");
    }
    var updated := db.tweets[tweetId.id].(content := content.value);
    db.tweets := db.tweets[tweetId.id := updated];
    resp := Reply(200, TweetDoc(tweetId.id, updated));
  }

  /** `deleteTweet`: 400 for an invalid id, 404 for a missing tweet; otherwise that tweet, and
      only it, is removed. */
  method DeleteTweet(db: Db, tweetId: RawId) returns (resp: Response)
    requires db.Valid()
    modifies db`tweets
    ensures db.Valid()
    ensures tweetId.Malformed? ==> resp == Fail(400, "Invalid userId format") && db.tweets == old(db.tweets)
    ensures tweetId.ObjectId? && tweetId.id !in old(db.tweets) ==>
      resp == Fail(404, "Tweet not found") && db.tweets == old(db.tweets)
    ensures tweetId.ObjectId? && tweetId.id in old(db.tweets) ==>
      resp == Reply(200, NoData) && db.tweets == old(db.tweets) - {tweetId.id}
  {
    if tweetId.Malformed? {
      return Fail(400, "Invalid userId format");
    }
    if tweetId.id !in db.tweets {
      return Fail(404, "Tweet not found");
    }
    db.tweets := db.tweets - {tweetId.id};
    resp := Reply(200, NoData);
  }

  /** A tweet created and then listed by its owner appears in the owner's list with the content
      it was created with. */
  method CreateThenList(db: Db, caller: Id, content: string) returns (created: Response, listed: Response)
    requires db.Valid() && content != ""
    modifies db`tweets, db`nextId
    ensures db.Valid()
    ensures created.status == 200 && created.body.TweetDoc?
    ensures listed.status == 200 && listed.body.TweetList?
    ensures exists i :: 0 <= i < |listed.body.tweets| && listed.body.tweets[i] == (created.body.tweetId, Tweet(content, caller))
  {
    created := CreateTweet(db, caller, Some(content));
    var id := created.body.tweetId;
    listed := GetUserTweets(db, ObjectId(caller));
    assert id in db.tweets && OwnedBy(caller)(db.tweets[id]);
    var i :| 0 <= i < |listed.body.tweets| && listed.body.tweets[i].0 == id;
  }
}

=== FILE: user_controller.dfy ===
/** Registration, login and logout over the users collection. */
module UserController {
  import opened Records
  import opened Text
  import opened Http
  import opened Tables
  import opened Store

  datatype RegistrationForm = RegistrationForm(
    fullName: Option<string>,
    email: Option<string>,
    username: Option<string>,
    password: Option<string>)

  /** The multipart files of a registration: `NoFiles` when `req.files` is undefined, otherwise
      the stored path of the first `avatar` and of the first `coverImage`, when sent. */
  datatype Uploads = NoFiles | Files(avatar: Option<string>, coverImage: Option<string>)

  /** The outcome of minting a token pair for a user and saving it: both tokens, or a failure. */
  datatype Mint = Minted(accessToken: string, refreshToken: string) | MintFailed

  /** `field?.trim() === ""`: the field is present and trims to nothing. */
  predicate BlankField(field: Option<string>)
  {
    field.Some? && Trim(field.value) == ""
  }

  predicate AnyBlank(form: RegistrationForm)
  {
    BlankField(form.fullName) || BlankField(form.email) || BlankField(form.username) || BlankField(form.password)
  }

  /** A field is rejected as blank exactly when it is present and all white space; an absent
      field is never blank. */
  lemma BlankFieldMeaning(field: Option<string>)
    ensures BlankField(field) <==> field.Some? && AllSpace(field.value)
  {
    if field.Some? {
      TrimEmptyIffAllSpace(field.value);
    }
  }

  /** The `{ $or: [{ email }, { username }] }` filter, with the username as sent (not lowercased).
      An absent field matches no account. */
  predicate ClaimedBy(form: RegistrationForm, u: User)
  {
    (form.email.Some? && u.email == form.email.value)
    || (form.username.Some? && u.username == form.username.value)
  }

  function Claims(form: RegistrationForm): User -> bool
  {
    (u: User) => ClaimedBy(form, u)
  }

  ghost predicate Conflict(users: map<Id, User>, form: RegistrationForm)
  {
    exists k :: k in users && ClaimedBy(form, users[k])
  }

  /** `req.files?.avatar[0]?.path`, then the `!avatarLocalPath` check: without multipart files
      the path is undefined (400); multipart files without an avatar make `avatar[0]` throw (500). */
  function AvatarPath(files: Uploads): Result<string>
  {
    match files
    case NoFiles => Err(400, "profile image required!")
    case Files(None, _) => Err(500, "Cannot read properties of undefined")
    case Files(Some(path), _) => if path == "" then Err(400, "profile image required!") else Ok(path)
  }

  /** The cover upload: nothing is uploaded without a cover path. */
  function CoverAsset(files: Uploads, upload: string -> Option<Asset>): Option<Asset>
  {
    if files.Files? && files.coverImage.Some? then upload(files.coverImage.value) else None
  }

  predicate Complete(form: RegistrationForm)
  {
    form.fullName.Some? && form.email.Some? && form.username.Some? && form.password.Some?
  }

  /** The account `User.create` stores: lowercased username, the avatar's url, the cover's url or
      "", the hashed password, and no session. */
  function NewUser(form: RegistrationForm, avatar: Asset, cover: Option<Asset>, hash: string -> string): User
    requires Complete(form)
  {
    User(ToLower(form.username.value), form.email.value, form.fullName.value, avatar.url,
         if cover.Some? then cover.value.url else "", hash(form.password.value), None)
  }

  /** The unique indexes reject an account whose username or email is already stored. */
  predicate Taken(u: User, candidate: User)
  {
    u.username == candidate.username || u.email == candidate.email
  }

  function Collides(candidate: User): User -> bool
  {
    (u: User) => Taken(u, candidate)
  }

  /** An accepted registration keeps the store's account invariants. */
  lemma NewUserKeepsAccountsValid(users: map<Id, User>, id: Id, u: User)
    requires UniqueAccounts(users) && LowercaseNames(users)
    requires id !in users && NoUpper(u.username)
    requires forall k :: k in users ==> !Taken(users[k], u)
    ensures UniqueAccounts(users[id := u]) && LowercaseNames(users[id := u])
  {
  }

  /** The conflict check compares the username as sent with the lowercased stored names, so a
      username with an upper-case letter never conflicts by name. */
  lemma MixedCaseNameNeverConflicts(users: map<Id, User>, form: RegistrationForm)
    requires LowercaseNames(users)
    requires form.username.Some? && !NoUpper(form.username.value)
    requires forall k :: k in users ==> form.email.None? || users[k].email != form.email.value
    ensures !Conflict(users, form)
  {
  }

  /** "Alice" passes the conflict check against a stored "alice", and the account to create then
      collides with "alice" on the username index. */
  lemma MixedCaseRegistrationCollides(form: RegistrationForm, hash: string -> string)
    requires form == RegistrationForm(Some("Alice Doe"), Some("alice@b.example"), Some("Alice"), Some("pw"))
    ensures var stored := User("alice", "alice@a.example", "Alice", "a.png", "", "h", None);
      var users := map[0 := stored];
      !Conflict(users, form)
      && Taken(stored, NewUser(form, Asset("x.png", None), None, hash))
  {
    var stored := User("alice", "alice@a.example", "Alice", "a.png", "", "h", None);
    assert ToLower("Alice") == "alice" by {
      assert ToLower("Alice")[0] == LowerChar('A');
    }
    assert !ClaimedBy(form, stored);
  }

  /** The checks of `registerUser`, in order, and the account it creates when all pass:
      blank field (400), taken email or username (409), avatar path missing (400) or unreadable
      (500), avatar upload failed (400), incomplete form (500), unique index violated (500). */
  ghost function RegisterOutcome(users: map<Id, User>, form: RegistrationForm, files: Uploads,
                                 upload: string -> Option<Asset>, hash: string -> string): (r: Result<User>)
    ensures AnyBlank(form) ==> r == Err(400, "All fileds are required")
    ensures !AnyBlank(form) && Conflict(users, form) ==> r == Err(409, "User already exists")
    ensures !AnyBlank(form) && !Conflict(users, form) && files.NoFiles? ==> r == Err(400, "profile image required!")
    ensures !AnyBlank(form) && !Conflict(users, form) && AvatarPath(files).Err? ==>
      r == Err(AvatarPath(files).status, AvatarPath(files).message)
    ensures !AnyBlank(form) && !Conflict(users, form) && AvatarPath(files).Ok? ==>
      && (upload(AvatarPath(files).value).None? ==> r == Err(400, "profile image required!"))
      && (upload(AvatarPath(files).value).Some? && !Complete(form) ==> r == Err(500, "User validation failed"))
    ensures r.Ok? ==> !AnyBlank(form) && !Conflict(users, form) && Complete(form)
    ensures r.Ok? ==> AvatarPath(files).Ok? && upload(AvatarPath(files).value).Some?
    ensures r.Ok? ==>
      && r.value.username == ToLower(form.username.value)
      && r.value.email == form.email.value
      && r.value.fullName == form.fullName.value
      && r.value.avatar == upload(AvatarPath(files).value).value.url
      && r.value.coverImage == (if CoverAsset(files, upload).Some? then CoverAsset(files, upload).value.url else "")
      && r.value.password == hash(form.password.value)
      && r.value.refreshToken.None?
    ensures r.Ok? ==> forall k :: k in users ==> !Taken(users[k], r.value)
    ensures r.Err? && r.status == 500 && Complete(form) && AvatarPath(files).Ok? ==>
      r == Err(500, "E11000 duplicate key error")
      && exists k :: k in users && Taken(users[k], NewUser(form, upload(AvatarPath(files).value).value, CoverAsset(files, upload), hash))
    ensures r.Err? ==> r.status in {400, 409, 500}
  {
    if AnyBlank(form) then Err(400, "All fileds are required")
    else if Conflict(users, form) then Err(409, "User already exists")
    else if AvatarPath(files).Err? then AvatarPath(files).PropagateError()
    else if upload(AvatarPath(files).value).None? then Err(400, "profile image required!")
    else if !Complete(form) then Err(500, "User validation failed")
    else
      var u := NewUser(form, upload(AvatarPath(files).value).value, CoverAsset(files, upload), hash);
      if exists k :: k in users && Taken(users[k], u) then Err(500, "E11000 duplicate key error")
      else Ok(u)
  }

  /** `registerUser`: on success the new account is stored under a fresh id and answered without
      its password and refresh token; on any failure nothing is stored. */
  method RegisterUser(db: Db, form: RegistrationForm, files: Uploads,
                      upload: string -> Option<Asset>, hash: string -> string)
    returns (resp: Response)
    requires db.Valid()
    modifies db`users, db`nextId
    ensures db.Valid()
    ensures var o := RegisterOutcome(old(db.users), form, files, upload, hash);
      && (o.Err? ==> resp == Fail(o.status, o.message) && db.users == old(db.users) && db.nextId == old(db.nextId))
      && (o.Ok? ==> db.users == old(db.users)[old(db.nextId) := o.value] && db.nextId == old(db.nextId) + 1
                    && resp == Response(201, Profile(ViewOf(old(db.nextId), o.value)), Untouched))
  {
    ghost var o := RegisterOutcome(db.users, form, files, upload, hash);
    if AnyBlank(form) {
      assert o == Err(400, "All fileds are required");
      return Fail(400, "All fileds are required");
    }
    var existing := FindFirst(db.users, db.nextId, Claims(form));
    if existing.Some? {
      assert o == Err(409, "User already exists");
      return Fail(409, "User already exists");
    }
    var avatarPath := AvatarPath(files);
    if avatarPath.Err? {
      assert o == Err(avatarPath.status, avatarPath.message);
      return Fail(avatarPath.status, avatarPath.message);
    }
    var avatar := upload(avatarPath.value);
    var cover := CoverAsset(files, upload);
    if avatar.None? {
      assert o == Err(400, "profile image required!");
      return Fail(400, "profile image required!");
    }
    if !Complete(form) {
      // `username.toLowerCase()` on an absent username throws, and the schema requires the
      // other fields: either way the error surfaces as 500.
      assert o == Err(500, "User validation failed");
      return Fail(500, "User validation failed");
    }
    var u := NewUser(form, avatar.value, cover, hash);
    var clash := FindFirst(db.users, db.nextId, Collides(u));
    if clash.Some? {
      assert o == Err(500, "E11000 duplicate key error");
      return Fail(500, "E11000 duplicate key error");
    }
    assert forall k :: k in db.users ==> !Taken(db.users[k], u);
    assert o == Ok(u);
    var id := InsertUser(db, u);
    resp := Response(201, Profile(ViewOf(id, u)), Untouched);
  }

  /** `User.create` of an account that clashes with no stored one, under a fresh id. */
  method InsertUser(db: Db, u: User) returns (id: Id)
    requires db.Valid() && NoUpper(u.username)
    requires forall k :: k in db.users ==> !Taken(db.users[k], u)
    modifies db`users, db`nextId
    ensures db.Valid()
    ensures id == old(db.nextId) && db.nextId == id + 1 && db.users == old(db.users)[id := u]
  {
    id := db.NewId();
    NewUserKeepsAccountsValid(db.users, id, u);
    db.users := db.users[id := u];
  }

  /** The account with this exact username, if any (there is at most one). */
  ghost function AccountNamed(users: map<Id, User>, name: string): Option<Id>
  {
    if exists k :: k in users && users[k].username == name then
      Some(var k :| k in users && users[k].username == name; k)
    else None
  }

  /** `genrateAccessAndRefreshTokens`: mints a pair and overwrites the stored refresh token with
      the new one, whatever it held before; any failure becomes 500 and stores nothing. */
  method GenerateTokens(db: Db, userId: Id, mint: Mint) returns (r: Result<(string, string)>)
    requires db.Valid()
    modifies db`users
    ensures db.Valid()
    ensures r.Err? <==> userId !in old(db.users) || mint.MintFailed?
    ensures r.Err? ==> r == Err(500, "something went wrong") && db.users == old(db.users)
    ensures r.Ok? ==> r.value == (mint.accessToken, mint.refreshToken)
    ensures r.Ok? ==> db.users == old(db.users)[userId := old(db.users)[userId].(refreshToken := Some(mint.refreshToken))]
  {
    if userId !in db.users || mint.MintFailed? {
      return Err(500, "something went wrong");
    }
    var u := db.users[userId];
    db.users := db.users[userId := u.(refreshToken := Some(mint.refreshToken))];
    r := Ok((mint.accessToken, mint.refreshToken));
  }

  /** `passwordMatches(candidate, stored)` stands for the user model's password comparison. */
  method LoginUser(db: Db, username: Option<string>, password: Option<string>,
                   passwordMatches: (Option<string>, string) -> bool, mint: Mint)
    returns (resp: Response)
    requires db.Valid()
    modifies db`users
    ensures db.Valid()
    ensures resp.status != 200 ==> db.users == old(db.users)
    ensures !Truthy(username) ==> resp == Fail(400, "username is required")
    ensures Truthy(username) && AccountNamed(old(db.users), username.value).None? ==>
      resp == Fail(404, "User not found")
    ensures Truthy(username) && AccountNamed(old(db.users), username.value).Some? ==>
      var k := AccountNamed(old(db.users), username.value).value;
      && (!passwordMatches(password, old(db.users)[k].password) ==> resp == Fail(401, "Invalid user credentials"))
      && (passwordMatches(password, old(db.users)[k].password) && mint.MintFailed? ==>
            resp == Fail(500, "something went wrong"))
      && (passwordMatches(password, old(db.users)[k].password) && mint.Minted? ==>
            && db.users == old(db.users)[k := old(db.users)[k].(refreshToken := Some(mint.refreshToken))]
            && resp == Response(200, Session(ViewOf(k, db.users[k]), mint.accessToken, mint.refreshToken),
                                SetTokens(mint.accessToken, mint.refreshToken)))
  {
    if !Truthy(username) {
      return Fail(400, "username is required");
    }
    var found := FindFirst(db.users, db.nextId, HasUsername(username.value));
    if found.None? {
      return Fail(404, "User not found");
    }
    var k := found.value;
    assert AccountNamed(db.users, username.value) == Some(k);
    if !passwordMatches(password, db.users[k].password) {
      return Fail(401, "Invalid user credentials");
    }
    var tokens := GenerateTokens(db, k, mint);
    if tokens.Err? {
      return Fail(tokens.status, tokens.message);
    }
    var (accessToken, refreshToken) := tokens.value;
    resp := Response(200, Session(ViewOf(k, db.users[k]), accessToken, refreshToken),
                     SetTokens(accessToken, refreshToken));
  }

  function HasUsername(name: string): User -> bool
  {
    (u: User) => u.username == name
  }

  /** After login the stored refresh token is the one handed to the client, so a second login
      supersedes the first session's token. */
  method LoginTwice(db: Db, username: string, password: Option<string>,
                    passwordMatches: (Option<string>, string) -> bool,
                    access1: string, first: string, access2: string, second: string)
    returns (r1: Response, r2: Response)
    requires db.Valid()
    requires username != "" && AccountNamed(db.users, username).Some?
    requires passwordMatches(password, db.users[AccountNamed(db.users, username).value].password)
    modifies db`users
    ensures db.Valid()
    ensures r1.status == 200 && r2.status == 200
    ensures r1.cookies == SetTokens(access1, first) && r2.cookies == SetTokens(access2, second)
    ensures var k := AccountNamed(old(db.users), username).value;
      k in db.users && db.users[k].refreshToken == Some(second)
  {
    ghost var k := AccountNamed(db.users, username).value;
    r1 := LoginUser(db, Some(username), password, passwordMatches, Minted(access1, first));
    assert db.users[k].username == old(db.users)[k].username;
    assert AccountNamed(db.users, username) == Some(k);
    r2 := LoginUser(db, Some(username), password, passwordMatches, Minted(access2, second));
  }

  /** An account stored under the lowercased `name` is the one login finds by `name` when `name`
      has no upper-case letter; otherwise login finds no account at all, since every stored
      username is lowercase. */
  lemma NameAfterRegister(users: map<Id, User>, id: Id, u: User, name: string)
    requires id in users && users[id] == u && u.username == ToLower(name)
    requires UniqueAccounts(users) && LowercaseNames(users)
    ensures NoUpper(name) ==> AccountNamed(users, name) == Some(id)
    ensures !NoUpper(name) ==> AccountNamed(users, name).None?
  {
    ToLowerFixesIff(name);
  }

  /** A registration that passes the blank-field check with every field present has a non-empty
      username. */
  lemma AcceptedNameNonEmpty(form: RegistrationForm)
    requires !AnyBlank(form) && Complete(form)
    ensures form.username.value != ""
  {
    TrimEmptyIffAllSpace(form.username.value);
  }

  /** Registering and then logging in with the same username and password. The account is stored
      under the lowercased username, while login looks the username up as sent. A username without
      an upper-case letter therefore logs in and receives the minted pair. A username with one
      (such as "Alice") is answered 404, because no stored name matches it. */
  method RegisterThenLogin(db: Db, form: RegistrationForm, files: Uploads,
                           upload: string -> Option<Asset>, hash: string -> string,
                           passwordMatches: (Option<string>, string) -> bool, mint: Mint)
    returns (r1: Response, r2: Response)
    requires db.Valid()
    requires RegisterOutcome(db.users, form, files, upload, hash).Ok?
    requires passwordMatches(form.password, hash(form.password.value))
    requires mint.Minted?
    modifies db`users, db`nextId
    ensures db.Valid()
    ensures r1.status == 201
    ensures var id := old(db.nextId);
      NoUpper(form.username.value) ==>
        && id in db.users && db.users[id].refreshToken == Some(mint.refreshToken)
        && r2 == Response(200, Session(ViewOf(id, db.users[id]), mint.accessToken, mint.refreshToken),
                          SetTokens(mint.accessToken, mint.refreshToken))
    ensures !NoUpper(form.username.value) ==>
      && r2 == Fail(404, "User not found")
      && db.users == old(db.users)[old(db.nextId) := RegisterOutcome(old(db.users), form, files, upload, hash).value]
  {
    ghost var u := RegisterOutcome(db.users, form, files, upload, hash).value;
    ghost var id := db.nextId;
    r1 := RegisterUser(db, form, files, upload, hash);
    AcceptedNameNonEmpty(form);
    NameAfterRegister(db.users, id, u, form.username.value);
    r2 := LoginUser(db, form.username, form.password, passwordMatches, mint);
  }

  /** `logoutUser` answers 200 and clears both cookies. Its `findByIdAndUpdate` query is neither
      awaited nor executed, so the stored refresh token is left as it was: nothing in the store
      changes. */
  method LogoutUser(db: Db, caller: Id) returns (resp: Response)
    ensures resp == Response(200, NoData, Cleared)
  {
    resp := Response(200, NoData, Cleared);
  }
}

=== FILE: video_controller.dfy ===
/** Videos: the paged, filtered and sorted listing, publishing, reading, updating, deleting and
    the publish toggle. */
module VideoController {
  import opened Records
  import opened Text
  import opened Http
  import opened Tables
  import opened Paging
  import opened Ordering
  import opened Store

  /** The `userId` query parameter as an owner restriction: absent or empty means no
      restriction, an ObjectId restricts to that owner, anything else is rejected with 400. */
  function OwnerFilter(userId: Option<RawId>): (r: Result<Option<Id>>)
    ensures r.Err? <==> userId.Some? && userId.value.Malformed? && userId.value.text != ""
    ensures r.Err? ==> r == Err(400, "Invalid userId format")
    ensures r.Ok? && r.value.Some? <==> userId.Some? && userId.value.ObjectId?
    ensures r.Ok? && r.value.Some? ==> userId == Some(ObjectId(r.value.value))
  {
    match userId
    case None => Ok(None)
    case Some(ObjectId(id)) => Ok(Some(id))
    case Some(Malformed(text)) => if text == "" then Ok(None) else Err(400, "Invalid userId format")
  }

  /** The `find` filter: a truthy `query` must match the title or the description (`matches`
      stands for the case-insensitive `$regex` on either field), and an owner restriction must
      match the owner. */
  function VideoFilter(query: Option<string>, owner: Option<Id>, matches: (string, Video) -> bool): (f: Video -> bool)
    ensures !Truthy(query) && owner.None? ==> forall v :: f(v)
    ensures owner.Some? ==> forall v :: f(v) ==> v.owner == owner.value
    ensures Truthy(query) ==> forall v :: f(v) ==> matches(query.value, v)
    ensures owner.Some? && !Truthy(query) ==> forall v :: f(v) <==> v.owner == owner.value
    ensures owner.None? && Truthy(query) ==> forall v :: f(v) <==> matches(query.value, v)
    ensures owner.Some? && Truthy(query) ==>
      forall v :: f(v) <==> v.owner == owner.value && matches(query.value, v)
  {
    (v: Video) => (!Truthy(query) || matches(query.value, v)) && (owner.None? || v.owner == owner.value)
  }

  /** The sort key of a listed video: `fieldKey` reads the named field of the document. */
  function EntryKey(fieldKey: (string, Video) -> int): (string, (Id, Video)) -> int
  {
    (field: string, e: (Id, Video)) => fieldKey(field, e.1)
  }

  /** The listed window: the matching videos in the requested order, then the page. Every entry
      is a stored, matching video; there are at most `limit` of them; and they keep the
      requested order (increasing id, or sorted on the field). `WindowSize` and
      `WindowOfListing` below give its exact length and contents. */
  function VideoWindow(videos: map<Id, Video>, bound: nat, filter: Video -> bool, order: SortOrder,
                       fieldKey: (string, Video) -> int, pg: Paging): (r: seq<(Id, Video)>)
    requires Below(videos, bound) && pg.page >= 1 && pg.size >= 1
    ensures |r| <= pg.size
    ensures forall i :: 0 <= i < |r| ==> r[i].0 in videos && videos[r[i].0] == r[i].1 && filter(r[i].1)
    ensures order.Natural? ==> forall i, j :: 0 <= i < j < |r| ==> r[i].0 < r[j].0
    ensures order.ByField? ==> SortedBy(r, KeyOf(EntryKey(fieldKey), order.field), order.ascending)
  {
    var found := Find(videos, bound, filter);
    var arranged := Arrange(found, order, EntryKey(fieldKey));
    ReorderedEntries(found, arranged, videos, filter);
    var r := Page(arranged, pg);
    if order.Natural? then
      PageOfIncreasing(arranged, pg);
      r
    else
      PageOfSorted(arranged, pg, KeyOf(EntryKey(fieldKey), order.field), order.ascending);
      r
  }

  /** The window holds as many videos as the page holds of the matching count. */
  lemma WindowSize(videos: map<Id, Video>, bound: nat, filter: Video -> bool, order: SortOrder,
                   fieldKey: (string, Video) -> int, pg: Paging)
    requires Below(videos, bound) && pg.page >= 1 && pg.size >= 1
    ensures var r, n := VideoWindow(videos, bound, filter, order, fieldKey, pg), |KeysWhere(videos, filter)|;
      |r| == if Skip(pg) < n then Min(pg.size, n - Skip(pg)) else 0
  {
    var found := Find(videos, bound, filter);
    var arranged := Arrange(found, order, EntryKey(fieldKey));
    ListingSize(found, videos, filter);
    assert |arranged| == |multiset(arranged)| == |multiset(found)| == |found|;
  }

  /** The window is the page of the listing of all matching videos: that listing left in id
      order, or rearranged into the requested field order. */
  lemma WindowOfListing(videos: map<Id, Video>, bound: nat, filter: Video -> bool, order: SortOrder,
                        fieldKey: (string, Video) -> int, pg: Paging)
    requires Below(videos, bound) && pg.page >= 1 && pg.size >= 1
    ensures var r := VideoWindow(videos, bound, filter, order, fieldKey, pg);
      forall es :: ListsExactly(es, videos, filter) ==>
        exists s :: ArrangedAs(s, es, order, EntryKey(fieldKey)) && r == Page(s, pg)
  {
    var found := Find(videos, bound, filter);
    var arranged := Arrange(found, order, EntryKey(fieldKey));
    forall es | ListsExactly(es, videos, filter)
      ensures exists s :: ArrangedAs(s, es, order, EntryKey(fieldKey)) && Page(arranged, pg) == Page(s, pg)
    {
      ListsExactlyIsUnique(es, found, videos, filter);
      assert ArrangedAs(arranged, es, order, EntryKey(fieldKey));
    }
  }

  /** `getAllVideos`: page and limit are checked first, then the owner restriction; the answer
      is the window `skip((page - 1) * limit).limit(limit)` of the matching videos in the
      requested order, with the count of all matching videos, or 404 when none match at all
      (a page past the end of a non-empty result is 200 with no videos). */
  method GetAllVideos(db: Db, page: Option<string>, limit: Option<string>, query: Option<string>,
                      sortBy: Option<string>, sortType: Option<string>, userId: Option<RawId>,
                      matches: (string, Video) -> bool, fieldKey: (string, Video) -> int)
    returns (resp: Response)
    requires db.Valid()
    ensures ParsePaging(page, limit).Err? ==>
      resp == Fail(ParsePaging(page, limit).status, ParsePaging(page, limit).message)
    ensures ParsePaging(page, limit).Ok? && OwnerFilter(userId).Err? ==> resp == Fail(400, "Invalid userId format")
    ensures ParsePaging(page, limit).Ok? && OwnerFilter(userId).Ok? ==>
      var pg := ParsePaging(page, limit).value;
      var filter := VideoFilter(query, OwnerFilter(userId).value, matches);
      && (|KeysWhere(db.videos, filter)| == 0 <==> resp == Fail(404, "No videos found"))
      && (|KeysWhere(db.videos, filter)| > 0 ==>
            && resp.status == 200 && resp.body.VideoPage?
            && resp.body.videoCount == |KeysWhere(db.videos, filter)|
            && |resp.body.videos| <= pg.size
            && (forall i :: 0 <= i < |resp.body.videos| ==>
                  var (k, v) := resp.body.videos[i];
                  k in db.videos && db.videos[k] == v && filter(v))
            && (OrderOf(sortBy, sortType).Natural? ==>
                  forall i, j :: 0 <= i < j < |resp.body.videos| ==> resp.body.videos[i].0 < resp.body.videos[j].0)
            && (OrderOf(sortBy, sortType).ByField? ==>
                  var order := OrderOf(sortBy, sortType);
                  SortedBy(resp.body.videos, KeyOf(EntryKey(fieldKey), order.field), order.ascending))
            && resp.body.videos == Page(Arrange(Find(db.videos, db.nextId, filter),
                                                OrderOf(sortBy, sortType), EntryKey(fieldKey)), pg))
  {
    var paging := ParsePaging(page, limit);
    if paging.Err? {
      return Fail(paging.status, paging.message);
    }
    var owner := OwnerFilter(userId);
    if owner.Err? {
      return Fail(owner.status, owner.message);
    }
    var filter := VideoFilter(query, owner.value, matches);
    var videos := VideoWindow(db.videos, db.nextId, filter, OrderOf(sortBy, sortType), fieldKey, paging.value);
    var videoCount := Count(db.videos, db.nextId, filter);
    if videoCount == 0 {
      return Fail(404, "No videos found");
    }
    resp := Reply(200, VideoPage(videos, videoCount));
  }

  /** The uploaded files of `publishAVideo`: the stored path of the first `videoFile` and of the
      first `thumbnail`, each absent when that field was not sent. */
  datatype PublishFiles = PublishFiles(videoFile: Option<string>, thumbnail: Option<string>)

  /** `publishAVideo`, checking in order: title or description missing (401), no video file
      (400), no thumbnail (400), either upload failing (400); otherwise a published video with
      no views, owned by the caller, is stored under a fresh id. */
  method PublishAVideo(db: Db, caller: Id, title: Option<string>, description: Option<string>,
                       files: PublishFiles, upload: string -> Option<Asset>)
    returns (resp: Response)
    requires db.Valid()
    modifies db`videos, db`nextId
    ensures db.Valid()
    ensures resp.status != 200 ==> db.videos == old(db.videos) && db.nextId == old(db.nextId)
    ensures !Truthy(title) || !Truthy(description) ==> resp == Fail(401, "title or description is missing")
    ensures Truthy(title) && Truthy(description) ==>
      && (files.videoFile.None? ==> resp == Fail(400, "No video file uploaded!"))
      && (files.videoFile.Some? && files.thumbnail.None? ==> resp == Fail(400, "Thumbnail is missing!"))
      && (files.videoFile.Some? && files.thumbnail.Some? ==>
            var published, cover := upload(files.videoFile.value), upload(files.thumbnail.value);
            && (published.None? || cover.None? ==> resp == Fail(400, "Error while uploading "))
            && (published.Some? && cover.Some? ==>
                  var v := Video(title.value, description.value, published.value.url, cover.value.url,
                                 published.value.duration, caller, true, 0);
                  && db.videos == old(db.videos)[old(db.nextId) := v]
                  && db.nextId == old(db.nextId) + 1
                  && resp == Reply(200, VideoDoc(old(db.nextId), v))))
  {
    if !Truthy(title) || !Truthy(description) {
      return Fail(401, "title or description is missing");
    }
    if files.videoFile.None? {
      return Fail(400, "No video file uploaded!");
    }
    if files.thumbnail.None? {
      return Fail(400, "Thumbnail is missing!");
    }
    var published := upload(files.videoFile.value);
    var cover := upload(files.thumbnail.value);
    if published.None? || cover.None? {
      return Fail(400, "Error while uploading ");
    }
    var v := Video(title.value, description.value, published.value.url, cover.value.url,
                   published.value.duration, caller, true, 0);
    var id := db.NewId();
    db.videos := db.videos[id := v];
    resp := Reply(200, VideoDoc(id, v));
  }

  /** `getVideoById`: 400 for an invalid id, 404 for a missing video, otherwise the video. */
  method GetVideoById(db: Db, videoId: RawId) returns (resp: Response)
    requires db.Valid()
    ensures videoId.Malformed? ==> resp == Fail(400, "Invalid userId format")
    ensures videoId.ObjectId? && videoId.id !in db.videos ==> resp == Fail(404, "Video not found")
    ensures videoId.ObjectId? && videoId.id in db.videos ==> resp == Reply(200, VideoDoc(videoId.id, db.videos[videoId.id]))
  {
    if videoId.Malformed? {
      return Fail(400, "Invalid userId format");
    }
    if videoId.id !in db.videos {
      return Fail(404, "Video not found");
    }
    resp := Reply(200, VideoDoc(videoId.id, db.videos[videoId.id]));
  }

  /** `updateVideo`, checking in order: invalid id (400), title or description missing (400);
      then, inside the `try`, reading `thumbnail.url` fails when no thumbnail was sent or its
      upload failed, and a missing video fails too: both answer 404 and change nothing.
      Otherwise title, description and thumbnail are replaced and nothing else. */
  method UpdateVideo(db: Db, videoId: RawId, title: Option<string>, description: Option<string>,
                     thumbnailPath: Option<string>, upload: string -> Option<Asset>)
    returns (resp: Response)
    requires db.Valid()
    modifies db`videos
    ensures db.Valid()
    ensures resp.status != 200 ==> db.videos == old(db.videos)
    ensures videoId.Malformed? ==> resp == Fail(400, "Invalid userId format")
    ensures videoId.ObjectId? && (!Truthy(title) || !Truthy(description)) ==>
      resp == Fail(400, "Title & description is required")
    ensures videoId.ObjectId? && Truthy(title) && Truthy(description) ==>
      var thumbnail := if Truthy(thumbnailPath) then upload(thumbnailPath.value) else None;
      var v := videoId.id;
      && (thumbnail.None? || v !in old(db.videos) ==> resp == Fail(404, "Video not found"))
      && (thumbnail.Some? && v in old(db.videos) ==>
            var updated := old(db.videos)[v].(title := title.value, description := description.value,
                                              thumbnail := thumbnail.value.url);
            && db.videos == old(db.videos)[v := updated]
            && resp == Reply(200, VideoDoc(v, updated)))
  {
    if videoId.Malformed? {
      return Fail(400, "Invalid userId format");
    }
    if !Truthy(title) || !Truthy(description) {
      return Fail(400, "Title & description is required");
    }
    var thumbnail: Option<Asset> := None;
    if Truthy(thumbnailPath) {
      thumbnail := upload(thumbnailPath.value);
    }
    if thumbnail.None? {
      return Fail(404, "Video not found");
    }
    var v := videoId.id;
    if v !in db.videos {
      return Fail(404, "Video not found");
    }
    var updated := db.videos[v].(title := title.value, description := description.value,
                                 thumbnail := thumbnail.value.url);
    db.videos := db.videos[v := updated];
    resp := Reply(200, VideoDoc(v, updated));
  }

  /** `deleteVideo`: an id that cannot be cast answers 400; any other id answers 200, whether or
      not a video had it, and that video (if any) is gone. */
  method DeleteVideo(db: Db, videoId: RawId) returns (resp: Response)
    requires db.Valid()
    modifies db`videos
    ensures db.Valid()
    ensures videoId.Malformed? ==>
      resp == Fail(400, "Error deleting video: Check if videoId is valid") && db.videos == old(db.videos)
    ensures videoId.ObjectId? ==>
      resp == Reply(200, NoData) && db.videos == old(db.videos) - {videoId.id} && videoId.id !in db.videos
  {
    if videoId.Malformed? {
      return Fail(400, "Error deleting video: Check if videoId is valid");
    }
    db.videos := db.videos - {videoId.id};
    resp := Reply(200, NoData);
  }

  /** `togglePublishStatus`: an id that cannot be cast, or a missing video, answers 400 and
      changes nothing; otherwise `isPublished` is negated and nothing else changes. */
  method TogglePublishStatus(db: Db, videoId: RawId) returns (resp: Response)
    requires db.Valid()
    modifies db`videos
    ensures db.Valid()
    ensures videoId.Malformed? || videoId.id !in old(db.videos) ==>
      && resp == Fail(400, "Error (un)publishing video: *either videoId is invalid or video file is deleted*")
      && db.videos == old(db.videos)
    ensures videoId.ObjectId? && videoId.id in old(db.videos) ==>
      var v := videoId.id;
      && v in db.videos && db.videos[v].isPublished == !old(db.videos)[v].isPublished
      && db.videos == old(db.videos)[v := old(db.videos)[v].(isPublished := !old(db.videos)[v].isPublished)]
      && resp == Reply(200, VideoDoc(v, db.videos[v]))
  {
    if videoId.Malformed? || videoId.id !in db.videos {
      return Fail(400, "Error (un)publishing video: *either videoId is invalid or video file is deleted*");
    }
    var v := videoId.id;
    var video := db.videos[v];
    video := video.(isPublished := !video.isPublished);
    db.videos := db.videos[v := video];
    resp := Reply(200, VideoDoc(v, video));
  }

  /** Toggling the publish status twice restores the videos collection. */
  method TogglePublishTwice(db: Db, v: Id) returns (r1: Response, r2: Response)
    requires db.Valid() && v in db.videos
    modifies db`videos
    ensures db.Valid()
    ensures r1.status == 200 && r2.status == 200
    ensures r1.body.VideoDoc? && r2.body.VideoDoc?
    ensures r1.body.video.isPublished == !old(db.videos)[v].isPublished
    ensures r2.body.video.isPublished == old(db.videos)[v].isPublished
    ensures db.videos == old(db.videos)
  {
    ghost var start: map<Id, Video> := db.videos;
    r1 := TogglePublishStatus(db, ObjectId(v));
    ghost var flipped := db.videos[v];
    r2 := TogglePublishStatus(db, ObjectId(v));
    assert db.videos == start[v := flipped][v := start[v]];
    RestoredEntry(start, v, flipped);
  }
}
